=== FILE: README.md ===
# A Horn-clause engine, modelled in Dafny

This project models the small logic engine in `src/logic_engine.py`. It covers:

- **Terms and atoms.** Terms are strings. A term is a variable when it starts with an upper-case letter or `_`. An atom is a predicate name with an argument list. A rule is a head atom with a body of atoms, and a fact is a rule with an empty body.
- **Substitutions.** A substitution maps variables to terms. It is applied by following binding chains to their end.
- **Unification.** Terms and atoms are unified with no occurs-check. Unification threads one substitution through the argument pairs.
- **The parser.** It turns program text into rules:
  - one clause per non-blank, non-`%` line;
  - a rule is split at its first `:-`;
  - body atoms are split at top-level commas;
  - it never rejects its input.
- **`prove`.** A depth-first, depth-bounded resolution search over the clauses in program order. It returns whether the query was proved and a textual trace.

The modules follow the program's structure:

| module | file | content |
|---|---|---|
| `Optional` | `optional.dfy` | `Option` (Python's `None`-or-value) |
| `Text` | `text.dfy` | the Python string operations the parser relies on: `strip`, `rstrip(".")`, `find`, `split`, `join` and `splitlines` |
| `Terms` | `terms.dfy` | `Atom`, `Rule`, `is_var`, `Atom.__str__` |
| `Substitution` | `subst.dfy` | `apply_subst_term` (as a function and as the loop), `apply_subst_atom`, and the facts about binding one more variable |
| `Unify` | `unify.dfy` | `unify_terms`, `unify_atoms` |
| `Parser` | `parser.dfy` | `_split_args`, `_parse_atom`, `_split_body`, `parse_program` |
| `Printing` | `printing.dfy` | a printer for programs and the proof that parsing inverts it |
| `Resolver` | `resolver.dfy` | `prove` and its inner `dfs` |
| `Derivation` | `derivation.dfy` | a reference semantics for the search (a derivation is a list of clause choices), and soundness, completeness, first-solution and trace-shape theorems |
| `Scenarios` | `scenarios.dfy` | a worked run showing that clause variables are not renamed apart |

A substitution is a `map<string, string>`.

- `Resolve(t, s)` follows the chain of `t` for at most `|s|` steps.
- `ChainsEnd(s)` says every chain stops within that many steps, so `Resolve` gives the same answer as the unbounded Python loop.
- `Acyclic(s)` adds that no variable is bound to itself. Every substitution that unification builds from the empty one keeps this invariant, and the unification and search contracts assume it.

## Model

| member | source | states |
|---|---|---|
| Substitution.Resolve | src/logic_engine.py:26-29 | the resolved term is not a bound variable; an unbound term resolves to itself; otherwise the result is one of the substitution's values |
| Substitution.ResolveStep | src/logic_engine.py:27-28 | a bound variable resolves as the term it is bound to: one turn of the loop does not change the answer |
| Substitution.ResolveIdempotent | src/logic_engine.py:26-29 | resolving a resolved term again gives the same term (the loop stops at a fixed point) |
| Substitution.ApplySubstTerm | src/logic_engine.py:26-29 | the while loop terminates on every substitution whose chains end, and returns the chain's end, which is not bound |
| Substitution.ApplyAtom | src/logic_engine.py:31-32 | applying a substitution keeps the predicate and the arity; argument `k` of the result is argument `k` followed to the end of its chain, which is not bound |
| Substitution.EmptyResolvesToSelf | src/logic_engine.py:26-32 | the empty substitution is acyclic and leaves every atom unchanged |
| Substitution.BindResolve | src/logic_engine.py:41-47 | binding an unbound resolved variable `v` to an unbound `w` extends the substitution and keeps it acyclic; every term that resolved to `v` now resolves to `w`, and all others as before |
| Substitution.ResolvesThroughTrans | src/logic_engine.py:55-58 | two successive extensions compose: resolution under the last one factors through the first one |
| Unify.UnifyTerms | src/logic_engine.py:34-49 | failure exactly when both resolved terms are distinct non-variables; a success returns `s` itself exactly when the resolved terms are already equal, and otherwise `s` with one binding of the unbound resolved variable (the left one first); it keeps acyclicity, only adds bindings and makes the two terms resolve alike |
| Unify.UnifyTermsMerge | src/logic_engine.py:34-49 | after a successful unification two terms resolve alike exactly when they did before, or one resolved to each of the unified terms |
| Unify.UnifyTermsSymmetric | src/logic_engine.py:34-49 | unifying in either order succeeds in the same cases and identifies the same terms |
| Unify.UnifyArgs | src/logic_engine.py:54-59 | the pairwise loop either fails or returns an acyclic extension under which both argument lists resolve to the same list |
| Unify.UnifyAtoms | src/logic_engine.py:51-59 | a predicate or arity mismatch fails; a success is an acyclic extension of `s` under which both atoms become equal |
| Unify.UnifyArgsAppend | src/logic_engine.py:55-58 | the substitution is threaded: unifying a concatenation unifies the first part, then the second part from its result, and a failure in the first part is final |
| Unify.PrefixUnifierStep | src/logic_engine.py:55-58 | the substitution after `k + 1` pairs is the `k`-th substitution unified with pair `k`, and a failure stays a failure |
| Unify.UnifyArgsFailsAtFirstPair | src/logic_engine.py:55-58 | the loop fails exactly when some pair fails to unify under the substitution that the earlier pairs produced |
| Unify.UnifyAtomsSelf | src/logic_engine.py:51-59 | an atom unifies with itself without adding any binding |
| Parser.SplitArgs | src/logic_engine.py:61-62 | every argument is non-empty, stripped and comma-free |
| Parser.StripNonEmptyAppend | src/logic_engine.py:62 | the comprehension keeps pieces one at a time: its result on a concatenation is the concatenation of its results |
| Parser.SplitArgsStep | src/logic_engine.py:61-62 | comma-free text gives its stripped self as the one argument, or none when that is empty; text with a comma gives the arguments before the first comma followed by the arguments after it |
| Parser.ParseAtom | src/logic_engine.py:64-70 | never fails; text without `(` after stripping spaces and trailing dots is a zero-arity atom with that name; otherwise the predicate is the stripped text before the first `(`, and the arguments are `_split_args` of the text between that `(` and the last `)`; the predicate never contains `(`; the arguments are non-empty, stripped and comma-free |
| Parser.ParseAtomPredStart | src/logic_engine.py:64-70 | the predicate `_parse_atom` returns never starts with whitespace |
| Printing.UnbalancedArgReturns | src/logic_engine.py:68-69 | the argument `a(b`, printed as `p(a(b)`, parses back: the arguments run from the first `(` to the last `)` |
| Printing.UnbalancedArgInBody | src/logic_engine.py:72-83 | the body `p(a(b), s` is a single piece: the unmatched `(` keeps the comma at depth one |
| Printing.UnbalancedArgSwallows | src/logic_engine.py:68-86 | the body `p(a(b), s` parses to the one atom `p(a(b)`: the argument comes back and the atom `s` after it is lost |
| Printing.CommaPredReturns | src/logic_engine.py:66-67 | the zero-arity predicate `p,q` parses back whole, since text without `(` is the predicate |
| Printing.SpacedPredFromFact | src/logic_engine.py:65-67 | `p .` parses to the predicate `p `: the dot is removed after the strip, so the space stays |
| Parser.ParseAtomStripped | src/logic_engine.py:64-65 | surrounding whitespace does not change the atom parsed |
| Parser.RawSegments | src/logic_engine.py:73-83 | the character loop cuts its input into pieces that, joined with the cut commas, give the input back |
| Parser.RawSegmentsCuts | src/logic_engine.py:73-83 | the loop cuts only at commas at depth zero and at every such comma: no piece holds a depth-zero comma, and every piece but the last returns to depth zero |
| Parser.RawSegmentsSpec | src/logic_engine.py:73-83 | a list of pieces is the loop's result exactly when it is a cutting of the text at its depth-zero commas, so that cutting is unique |
| Parser.SplitBody | src/logic_engine.py:72-87 | the parts are the stripped pieces of the loop's cutting (pinned down by Parser.RawSegmentsSpec); only the last piece is dropped, and only when it strips to empty |
| Parser.ParseClauseLine | src/logic_engine.py:95-102 | a line without `:-` is a fact whose head is the whole line parsed; otherwise the head is the text before the first `:-` |
| Parser.ClauseLines | src/logic_engine.py:91-94 | the kept lines are stripped, non-empty and do not start with `%` |
| Parser.ParseLines | src/logic_engine.py:90-103 | the rules are the kept lines, each parsed, in order |
| Parser.ParseProgram | src/logic_engine.py:89-103 | one rule per kept line of the text, in order, each the parse of that line |
| Parser.ParseLinesAppend | src/logic_engine.py:91-103 | parsing concatenated line lists concatenates the rule lists, so no line affects another |
| Parser.SkippedLine | src/logic_engine.py:93-94 | a blank line or a `%` comment line yields no rule |
| Printing.ParseAtomRoundTrip | src/logic_engine.py:13-16 | parsing the printed form of a well-formed atom gives the atom back |
| Printing.ParseAtomDotRoundTrip | src/logic_engine.py:64-70 | a trailing dot after the printed atom is stripped, and the atom comes back |
| Printing.SplitArgsJoin | src/logic_engine.py:61-62 | splitting well-formed arguments joined by `", "` gives them back |
| Printing.SplitBodyRoundTrip | src/logic_engine.py:72-87 | the body splitter cuts the printed body, joined by `", "`, exactly at the atoms' boundaries, because the commas inside an atom's parentheses are at depth one |
| Printing.ClauseLineRoundTrip | src/logic_engine.py:95-102 | a well-formed clause printed as `h.` or `h :- b1, b2.` is parsed back to itself |
| Printing.LinesJoin | src/logic_engine.py:91 | non-empty lines with no breaks, joined by newlines, are split back into the same lines |
| Printing.ParseProgramRoundTrip | src/logic_engine.py:89-103 | parsing a printed program of well-formed clauses gives the program back |
| Text.Strip | src/logic_engine.py:92 | the result has no whitespace at either end, and an already trimmed string is unchanged |
| Text.StripOnlySpace | src/logic_engine.py:92 | the stripped string is a contiguous part of the input, and everything removed before and after it is whitespace |
| Text.RStripDotsOnlyDots | src/logic_engine.py:65 | `rstrip(".")` removes only dots, from the end |
| Text.IndexOf | src/logic_engine.py:95-96 | the first index where the pattern occurs: it occurs there, at no earlier index, and `None` means nowhere |
| Text.Split | src/logic_engine.py:62 | the pieces joined by the separator give the input back, and no piece contains the separator |
| Text.Lines | src/logic_engine.py:91 | no line contains a line-break character |
| Text.LinesStep | src/logic_engine.py:91 | `splitlines` on break-free text, and on text cut at its first break (a `\r\n` pair counting as one break), gives the text before the break followed by the lines of the rest; together these fix the result on every string |
| Terms.IsVarInitial | src/logic_engine.py:23-24 | a term is a variable exactly when it is non-empty and its first character is one of `A`–`Z` or `_` |
| Terms.AtomStrShape | src/logic_engine.py:13-16 | the printed atom starts with its predicate; it is exactly the predicate when there are no arguments, and otherwise continues with `(` and ends with `)` |
| Resolver.Dfs | src/logic_engine.py:110-140 | the depth check comes before the empty-goal check; an exceeded bound adds the depth-limit line, and an empty goal list returns `s` and the trace unchanged; a failure within the bound adds exactly the current goal's Goal and Fail lines; a success extends the trace and gives an acyclic extension of `s` |
| Resolver.TryClauses | src/logic_engine.py:117-140 | the clause loop: if every clause from `i` on fails, the Goal and Fail lines of the goal are added; a success is an acyclic extension of `s` that extends the trace |
| Resolver.Prove | src/logic_engine.py:105-143 | a failed query with a non-negative bound has exactly the trace `Goal: q`, `  Fail: q`; a negative bound gives the single depth-limit line listing the query |
| Derivation.Derive | src/logic_engine.py:117-138 | a successful derivation ends in an acyclic extension of the starting substitution |
| Derivation.DfsSound | src/logic_engine.py:110-140 | a success of the search is a derivation within the depth bound; it gives the same substitution and the trace of its steps, and no derivation within the bound comes before it in clause order |
| Derivation.TryClausesSound | src/logic_engine.py:120-140 | a success of the clause loop from `i` is a derivation whose first choice is at least `i`, and is lexicographically first among the derivations that start there |
| Derivation.DfsComplete | src/logic_engine.py:110-140 | if any derivation succeeds within the depth bound, the search succeeds, whatever trace it started with |
| Derivation.TryClausesComplete | src/logic_engine.py:120-140 | if a derivation whose first choice is at least `i` succeeds, the clause loop from `i` succeeds |
| Derivation.ProveSoundComplete | src/logic_engine.py:105-143 | `prove` answers true exactly when a derivation of the query from the empty substitution succeeds within `max_depth` steps |
| Derivation.ProveFindsFirst | src/logic_engine.py:119-140 | a proof found is the lexicographically first successful derivation, and the returned trace is the trace of its steps |
| Derivation.ProveMonotone | src/logic_engine.py:111-112 | raising `max_depth` never loses a proof |
| Derivation.DeriveTraceShape | src/logic_engine.py:127-138 | a successful derivation writes two lines per step, alternating a Goal line and a Matched line |
| Derivation.ProveSuccessTrace | src/logic_engine.py:127-138 | a proved query's trace has an even length between 2 and `2 * max_depth`, with Goal and Matched lines alternating |
| Derivation.NoFactNoProof | src/logic_engine.py:111-140 | a program in which every clause has a body proves nothing |
| Derivation.FactProves | src/logic_engine.py:120-131 | with `max_depth >= 1`, a query that unifies with some fact is proved |
| Derivation.FactInProgramProves | src/logic_engine.py:120-131 | with `max_depth >= 1`, a query that is itself a fact of the program is proved |
| Derivation.FirstFactTrace | src/logic_engine.py:127-131 | a query matched by the first clause, a fact, is proved with exactly the lines `Goal: q` and `  Matched FACT: h` |
| Scenarios.SharedVariable | src/logic_engine.py:120-136 | `two :- p(a), p(b).` and `p(X).` do not prove `two` with the default bound: the second use of `p(X)` sees `X` still bound to `a` |

## Left out

- `src/langgraph_app.py`, `src/logiclm_chain.py`, `src/rag.py` and `src/demo.py`: these do prompting, retrieval, model calls and printing, which are I/O and foreign services. The query-atom parsers `_parse_query_atom` at `src/langgraph_app.py:89-97` and at `src/logiclm_chain.py:55-62` are copies of `_parse_atom`, modelled as `Parser.ParseAtom`.
- `IsVar` tests for ASCII `A`–`Z` or `_`. Python's `str.isupper` also accepts non-ASCII upper-case letters, and Unicode case tables are out of scope.
- Resolver.DepthLine and Resolver.Quoted write each printed atom between single quotes. Python's `repr` may choose double quotes (when the text holds `'`) and escapes backslashes and control characters such as a tab; the model does not reproduce that quoting and escaping. The line reaches `prove`'s output only when the bound is negative: deeper in the search, a call that reaches the bound fails, and its caller drops that trace.
- Resolver.Prove, Resolver.Dfs and the derivation theorems about them (Derivation.ProveSoundComplete, Derivation.ProveMonotone, Derivation.NoFactNoProof and the rest) have no recursion limit. Each expansion of a goal nests one more `dfs` call (src/logic_engine.py:129, 136), and the Python interpreter raises `RecursionError` at its recursion limit (about 1000 frames by default), which nothing catches. The model's answers are those of `prove` only while `max_depth + 2` nested calls fit under that limit. For example, with `p :- p.` followed by `p.` and `max_depth = 5000`, the model proves `p`, but the Python code raises before it gets there. Both callers in the repository use the default bound of 50.
- Unify.UnifyTerms, Unify.UnifyAtoms, Resolver.Dfs and the derivation lemmas require `Acyclic(s)`. The Python code also runs on substitutions with self-bindings, or with cycles, where it would loop. Unification never produces either from the empty substitution that `prove` starts from, so the search only ever sees acyclic substitutions.
- Printing.ParseProgramRoundTrip and the other round-trip lemmas hold only for well-formed tokens: non-empty, free of whitespace, `(`, `)`, `,` and `:`, not ending in `.` and not starting with `%`. Being well formed is sufficient and not necessary. `_parse_atom` never returns a predicate containing `(` or starting with whitespace, nor an argument that contains `,` or has whitespace at either end (Parser.ParseAtom, Parser.ParseAtomPredStart), so such names never come back. Some other names come back in some positions and not in others: an argument with an inner space such as `a b` comes back; the argument `a(b` comes back in a lone atom or a fact line (Printing.UnbalancedArgReturns), and in a rule body it comes back too but swallows every atom after it: the body `p(a(b), s` is one piece and parses to the single atom `p(a(b)`, so `s` is lost (Printing.UnbalancedArgInBody, Printing.UnbalancedArgSwallows); the predicate `p,q` comes back as a lone atom (Printing.CommaPredReturns) but a body cuts it at its comma (Parser.RawSegmentsCuts); the predicate `p ` comes back from the fact line `p .` (Printing.SpacedPredFromFact) but not as a lone atom.
- Parser.ParseClauseLine states the head and the fact case. The body of a rule is given by its definition, `_split_body` followed by `_parse_atom`, and the round-trip lemmas pin it down for printed rules.
- `parse_program` never raises (src/logic_engine.py:89-103): every kept line yields a rule, however malformed, and the model follows that.
- A matched fact writes two trace lines, a Goal line and a Matched line (src/logic_engine.py:127-131).
- A failure returns the caller's trace plus the current goal's Goal and Fail lines, dropping the traces of the branches it tried (src/logic_engine.py:140); `Resolver.Dfs` states this.
- Clause variables are not renamed apart and there is no occurs-check, as in the code. `Scenarios.SharedVariable` shows a consequence.

=== FILE: derivation.dfy ===
/** A reference semantics for the search: a derivation is the sequence of
    clause indices chosen at each step.  The search finds a derivation within
    the depth bound exactly when one exists, returns the lexicographically
    first one, and its trace is that derivation's lines. */
module Derivation {

  import opened Optional
  import opened Text
  import opened Terms
  import opened Substitution
  import opened Unify
  import opened Resolver

  /** Follow the clause choices in `path` from `goals` and `s`: each step
      unifies the chosen clause's head with the first goal (with `s` applied)
      and replaces that goal by the clause body.  The path succeeds when it
      ends exactly as the goals run out. */
  function Derive(program: seq<Rule>, goals: seq<Atom>, s: Subst, path: seq<nat>): (r: Option<Subst>)
    requires Acyclic(s)
    ensures r.Some? ==> Acyclic(r.value) && Extends(s, r.value)
    decreases |path|
  {
    if |path| == 0 then
      if |goals| == 0 then Some(s) else None
    else if |goals| == 0 || path[0] >= |program| then
      None
    else
      var r := program[path[0]];
      match UnifyAtoms(r.head, ApplyAtom(goals[0], s), s)
      case None => None
      case Some(s2) => Derive(program, r.body + goals[1..], s2, path[1..])
  }

  /** The goal and match lines of the steps of `path`. */
  function DeriveTrace(program: seq<Rule>, goals: seq<Atom>, s: Subst, path: seq<nat>): seq<string>
    requires Acyclic(s)
    decreases |path|
  {
    if |path| == 0 || |goals| == 0 || path[0] >= |program| then
      []
    else
      var goal := ApplyAtom(goals[0], s);
      var r := program[path[0]];
      match UnifyAtoms(r.head, goal, s)
      case None => []
      case Some(s2) => [GoalLine(goal), MatchLine(r, s2)] + DeriveTrace(program, r.body + goals[1..], s2, path[1..])
  }

  /** `path` derives the empty goal list from `goals` without the depth
      reaching past `maxDepth`. */
  predicate Succeeds(program: seq<Rule>, maxDepth: int, goals: seq<Atom>, s: Subst, depth: int, path: seq<nat>)
    requires Acyclic(s)
  {
    depth + |path| <= maxDepth && Derive(program, goals, s, path).Some?
  }

  /** `q` comes before `p` in lexicographic order, at a position both have. */
  predicate LexBefore(q: seq<nat>, p: seq<nat>)
    decreases |q|
  {
    |q| > 0 && |p| > 0 && (q[0] < p[0] || (q[0] == p[0] && LexBefore(q[1..], p[1..])))
  }

  /** No successful derivation comes before `p`. */
  ghost predicate FirstSuccess(program: seq<Rule>, maxDepth: int, goals: seq<Atom>, s: Subst, depth: int, p: seq<nat>)
    requires Acyclic(s)
  {
    forall q :: Succeeds(program, maxDepth, goals, s, depth, q) ==> !LexBefore(q, p)
  }

  // ---------------------------------------------------------------------------
  // Soundness: what the search returns is the first derivation

  /** A success of `dfs` follows a derivation within the bound, the first
      one in clause order; the trace gains exactly that derivation's lines. */
  lemma DfsSound(program: seq<Rule>, maxDepth: int, goals: seq<Atom>, s: Subst, depth: int, trace: seq<string>)
    returns (path: seq<nat>)
    requires Acyclic(s) && Dfs(program, maxDepth, goals, s, depth, trace).subst.Some?
    ensures Succeeds(program, maxDepth, goals, s, depth, path)
    ensures Derive(program, goals, s, path) == Dfs(program, maxDepth, goals, s, depth, trace).subst
    ensures Dfs(program, maxDepth, goals, s, depth, trace).trace == trace + DeriveTrace(program, goals, s, path)
    ensures FirstSuccess(program, maxDepth, goals, s, depth, path)
    decreases Budget(maxDepth, depth), |program| + 1
  {
    if |goals| == 0 {
      path := [];
      forall q | Succeeds(program, maxDepth, goals, s, depth, q)
        ensures q == []
      {
      }
    } else {
      path := TryClausesSound(program, maxDepth, goals, s, depth, trace, 0);
    }
  }

  /** The same for the clause loop from clause `i`: the derivation starts
      with a clause at or after `i` and no successful derivation starting at
      or after `i` comes before it. */
  lemma TryClausesSound(program: seq<Rule>, maxDepth: int, goals: seq<Atom>, s: Subst, depth: int,
                        trace: seq<string>, i: nat)
    returns (path: seq<nat>)
    requires Acyclic(s) && |goals| > 0 && depth <= maxDepth && i <= |program|
    requires TryClauses(program, maxDepth, goals, s, depth, trace, i).subst.Some?
    ensures |path| > 0 && path[0] >= i
    ensures Succeeds(program, maxDepth, goals, s, depth, path)
    ensures Derive(program, goals, s, path) == TryClauses(program, maxDepth, goals, s, depth, trace, i).subst
    ensures TryClauses(program, maxDepth, goals, s, depth, trace, i).trace == trace + DeriveTrace(program, goals, s, path)
    ensures forall q :: Succeeds(program, maxDepth, goals, s, depth, q) && |q| > 0 && q[0] >= i ==> !LexBefore(q, path)
    decreases Budget(maxDepth, depth), |program| - i
  {
    var goal := ApplyAtom(goals[0], s);
    var r := program[i];
    var rest := r.body + goals[1..];
    match UnifyAtoms(r.head, goal, s)
    case None =>
      var later := TryClausesSound(program, maxDepth, goals, s, depth, trace, i + 1);
      forall q | |q| > 0 && q[0] == i
        ensures !Succeeds(program, maxDepth, goals, s, depth, q)
      {
        DeriveStep(program, goals, s, q);
      }
      path := later;
      SkipSound(program, maxDepth, goals, s, depth, trace, i, path);
    case Some(s2) =>
      var t2 := trace + [GoalLine(goal), MatchLine(r, s2)];
      if Dfs(program, maxDepth, rest, s2, depth + 1, t2).subst.Some? {
        var tail := DfsSound(program, maxDepth, rest, s2, depth + 1, t2);
        path := [i] + tail;
        ExpandSound(program, maxDepth, goals, s, depth, trace, i, s2, tail);
      } else {
        var later := TryClausesSound(program, maxDepth, goals, s, depth, trace, i + 1);
        forall q | |q| > 0 && q[0] == i
          ensures !Succeeds(program, maxDepth, goals, s, depth, q)
        {
          DeriveStep(program, goals, s, q);
          DfsComplete(program, maxDepth, rest, s2, depth + 1, t2, q[1..]);
        }
        path := later;
        SkipSound(program, maxDepth, goals, s, depth, trace, i, path);
      }
  }

  /** The clause loop's success after clause `i`, when no derivation starts
      with clause `i`. */
  lemma SkipSound(program: seq<Rule>, maxDepth: int, goals: seq<Atom>, s: Subst, depth: int,
                  trace: seq<string>, i: nat, path: seq<nat>)
    requires Acyclic(s) && |goals| > 0 && depth <= maxDepth && i < |program|
    requires TryClauses(program, maxDepth, goals, s, depth, trace, i)
             == TryClauses(program, maxDepth, goals, s, depth, trace, i + 1)
    requires forall q :: |q| > 0 && q[0] == i ==> !Succeeds(program, maxDepth, goals, s, depth, q)
    requires |path| > 0 && path[0] >= i + 1
    requires forall q :: Succeeds(program, maxDepth, goals, s, depth, q) && |q| > 0 && q[0] >= i + 1 ==> !LexBefore(q, path)
    ensures forall q :: Succeeds(program, maxDepth, goals, s, depth, q) && |q| > 0 && q[0] >= i ==> !LexBefore(q, path)
  {
  }

  /** The clause loop's success at clause `i` itself, from the success of the
      expansion of clause `i`. */
  lemma ExpandSound(program: seq<Rule>, maxDepth: int, goals: seq<Atom>, s: Subst, depth: int,
                    trace: seq<string>, i: nat, s2: Subst, tail: seq<nat>)
    requires Acyclic(s) && |goals| > 0 && depth <= maxDepth && i < |program|
    requires UnifyAtoms(program[i].head, ApplyAtom(goals[0], s), s) == Some(s2)
    requires var rest := program[i].body + goals[1..];
      var t2 := trace + [GoalLine(ApplyAtom(goals[0], s)), MatchLine(program[i], s2)];
      var o := Dfs(program, maxDepth, rest, s2, depth + 1, t2);
      && o.subst.Some?
      && Succeeds(program, maxDepth, rest, s2, depth + 1, tail)
      && Derive(program, rest, s2, tail) == o.subst
      && o.trace == t2 + DeriveTrace(program, rest, s2, tail)
      && FirstSuccess(program, maxDepth, rest, s2, depth + 1, tail)
    ensures var path := [i] + tail;
      && Succeeds(program, maxDepth, goals, s, depth, path)
      && Derive(program, goals, s, path) == TryClauses(program, maxDepth, goals, s, depth, trace, i).subst
      && TryClauses(program, maxDepth, goals, s, depth, trace, i).trace == trace + DeriveTrace(program, goals, s, path)
      && forall q :: Succeeds(program, maxDepth, goals, s, depth, q) && |q| > 0 && q[0] >= i ==> !LexBefore(q, path)
  {
    var goal := ApplyAtom(goals[0], s);
    var r := program[i];
    var rest := r.body + goals[1..];
    var path := [i] + tail;
    assert path[0] == i && path[1..] == tail;
    DeriveStep(program, goals, s, path);
    AppendAssoc(trace, [GoalLine(goal), MatchLine(r, s2)], DeriveTrace(program, rest, s2, tail));
    forall q | Succeeds(program, maxDepth, goals, s, depth, q) && |q| > 0 && q[0] >= i
      ensures !LexBefore(q, path)
    {
      if q[0] == i {
        DeriveStep(program, goals, s, q);
        assert Succeeds(program, maxDepth, rest, s2, depth + 1, q[1..]);
      }
    }
  }

  /** One step of a derivation: the first clause choice, then the rest of
      the path from the goals and substitution it leads to. */
  lemma DeriveStep(program: seq<Rule>, goals: seq<Atom>, s: Subst, path: seq<nat>)
    requires Acyclic(s) && |goals| > 0 && |path| > 0 && path[0] < |program|
    ensures var r := program[path[0]];
      var goal := ApplyAtom(goals[0], s);
      match UnifyAtoms(r.head, goal, s)
      case None => Derive(program, goals, s, path).None?
      case Some(s2) =>
        && Derive(program, goals, s, path) == Derive(program, r.body + goals[1..], s2, path[1..])
        && DeriveTrace(program, goals, s, path)
           == [GoalLine(goal), MatchLine(r, s2)] + DeriveTrace(program, r.body + goals[1..], s2, path[1..])
  {
  }

  lemma AppendAssoc<T>(a: seq<T>, b: seq<T>, c: seq<T>)
    ensures (a + b) + c == a + (b + c)
  {
  }

  // ---------------------------------------------------------------------------
  // Completeness: a derivation within the bound is found

  /** If some derivation reaches the empty goal list within the bound, `dfs`
      succeeds, whatever the trace so far. */
  lemma DfsComplete(program: seq<Rule>, maxDepth: int, goals: seq<Atom>, s: Subst, depth: int,
                    trace: seq<string>, path: seq<nat>)
    requires Acyclic(s)
    ensures Succeeds(program, maxDepth, goals, s, depth, path) ==> Dfs(program, maxDepth, goals, s, depth, trace).subst.Some?
    decreases Budget(maxDepth, depth), |program| + 1
  {
    if depth <= maxDepth && |goals| > 0 {
      TryClausesComplete(program, maxDepth, goals, s, depth, trace, 0, path);
    }
  }

  lemma TryClausesComplete(program: seq<Rule>, maxDepth: int, goals: seq<Atom>, s: Subst, depth: int,
                           trace: seq<string>, i: nat, path: seq<nat>)
    requires Acyclic(s) && |goals| > 0 && depth <= maxDepth && i <= |program|
    ensures Succeeds(program, maxDepth, goals, s, depth, path) && |path| > 0 && path[0] >= i ==>
      TryClauses(program, maxDepth, goals, s, depth, trace, i).subst.Some?
    decreases Budget(maxDepth, depth), |program| - i
  {
    if i < |program| && |path| > 0 {
      var goal := ApplyAtom(goals[0], s);
      var r := program[i];
      match UnifyAtoms(r.head, goal, s)
      case None =>
        TryClausesComplete(program, maxDepth, goals, s, depth, trace, i + 1, path);
      case Some(s2) =>
        DfsComplete(program, maxDepth, r.body + goals[1..], s2, depth + 1,
                    trace + [GoalLine(goal), MatchLine(r, s2)], path[1..]);
        TryClausesComplete(program, maxDepth, goals, s, depth, trace, i + 1, path);
    }
  }

  // ---------------------------------------------------------------------------
  // The answer of `prove`

  /** `prove` answers true exactly when the query has a derivation of at
      most `maxDepth` steps. */
  lemma ProveSoundComplete(program: seq<Rule>, query: Atom, maxDepth: int)
    ensures Acyclic(map[])
    ensures Prove(program, query, maxDepth).proved <==>
      exists path :: Succeeds(program, maxDepth, [query], map[], 0, path)
  {
    EmptyResolvesToSelf(query);
    if Prove(program, query, maxDepth).proved {
      var path := DfsSound(program, maxDepth, [query], map[], 0, []);
    } else {
      forall path
        ensures !Succeeds(program, maxDepth, [query], map[], 0, path)
      {
        DfsComplete(program, maxDepth, [query], map[], 0, [], path);
      }
    }
  }

  /** When `prove` succeeds, its trace is the goal and match lines of the
      first derivation in clause order among those within the bound. */
  lemma ProveFindsFirst(program: seq<Rule>, query: Atom, maxDepth: int) returns (path: seq<nat>)
    requires Prove(program, query, maxDepth).proved
    ensures Acyclic(map[])
    ensures Succeeds(program, maxDepth, [query], map[], 0, path)
    ensures FirstSuccess(program, maxDepth, [query], map[], 0, path)
    ensures Prove(program, query, maxDepth).trace == DeriveTrace(program, [query], map[], path)
  {
    EmptyResolvesToSelf(query);
    path := DfsSound(program, maxDepth, [query], map[], 0, []);
  }

  /** A larger depth bound proves at least what a smaller one does. */
  lemma ProveMonotone(program: seq<Rule>, query: Atom, maxDepth: int, maxDepth': int)
    requires maxDepth <= maxDepth' && Prove(program, query, maxDepth).proved
    ensures Prove(program, query, maxDepth').proved
  {
    ProveSoundComplete(program, query, maxDepth);
    var path :| Succeeds(program, maxDepth, [query], map[], 0, path);
    ProveSoundComplete(program, query, maxDepth');
    assert Succeeds(program, maxDepth', [query], map[], 0, path);
  }

  /** A trace line naming a goal, and one naming the clause that matched it. */
  predicate IsGoalLine(line: string) {
    |line| >= 6 && line[..6] == "Goal: "
  }

  predicate IsMatchLine(line: string) {
    |line| >= 10 && line[..10] == "  Matched "
  }

  /** Goal lines at even positions, match lines at odd ones. */
  predicate Alternating(t: seq<string>) {
    forall k :: 0 <= k < |t| ==> if k % 2 == 0 then IsGoalLine(t[k]) else IsMatchLine(t[k])
  }

  lemma AlternatingCons(g: string, m: string, rest: seq<string>)
    requires IsGoalLine(g) && IsMatchLine(m) && Alternating(rest)
    ensures Alternating([g, m] + rest)
  {
    var t := [g, m] + rest;
    forall k | 2 <= k < |t|
      ensures t[k] == rest[k - 2] && (k - 2) % 2 == k % 2
    {
    }
  }

  lemma StepLines(goal: Atom, r: Rule, s2: Subst)
    requires ChainsEnd(s2)
    ensures IsGoalLine(GoalLine(goal)) && IsMatchLine(MatchLine(r, s2))
  {
    assert GoalLine(goal)[..6] == "Goal: ";
    assert MatchLine(r, s2)[..10] == "  Matched ";
  }

  /** A derivation's trace has two lines per step: the goal, then the clause
      that matched it. */
  lemma {:induction false} DeriveTraceShape(program: seq<Rule>, goals: seq<Atom>, s: Subst, path: seq<nat>)
    requires Acyclic(s) && Derive(program, goals, s, path).Some?
    ensures var t := DeriveTrace(program, goals, s, path);
      |t| == 2 * |path| && Alternating(t)
    decreases |path|
  {
    if |path| > 0 {
      var goal := ApplyAtom(goals[0], s);
      var r := program[path[0]];
      var s2 := UnifyAtoms(r.head, goal, s).value;
      DeriveStep(program, goals, s, path);
      DeriveTraceShape(program, r.body + goals[1..], s2, path[1..]);
      StepLines(goal, r, s2);
      AlternatingCons(GoalLine(goal), MatchLine(r, s2), DeriveTrace(program, r.body + goals[1..], s2, path[1..]));
    }
  }

  /** A successful `prove` leaves at most two lines per unit of the depth
      bound, alternating goal lines and match lines. */
  lemma ProveSuccessTrace(program: seq<Rule>, query: Atom, maxDepth: int)
    requires Prove(program, query, maxDepth).proved
    ensures var t := Prove(program, query, maxDepth).trace;
      |t| % 2 == 0 && 2 <= |t| <= 2 * maxDepth && Alternating(t)
  {
    var path := ProveFindsFirst(program, query, maxDepth);
    DeriveTraceShape(program, [query], map[], path);
  }

  /** With no fact in the program, no goal list that is not empty has a
      derivation: every step puts a non-empty body in front. */
  lemma {:induction false} NoFactNoDerivation(program: seq<Rule>, goals: seq<Atom>, s: Subst, path: seq<nat>)
    requires Acyclic(s) && |goals| > 0
    requires forall k :: 0 <= k < |program| ==> |program[k].body| > 0
    ensures Derive(program, goals, s, path).None?
    decreases |path|
  {
    if |path| > 0 && path[0] < |program| {
      var r := program[path[0]];
      match UnifyAtoms(r.head, ApplyAtom(goals[0], s), s)
      case None =>
      case Some(s2) =>
        NoFactNoDerivation(program, r.body + goals[1..], s2, path[1..]);
    }
  }

  /** A program without facts proves nothing: `p(X) :- p(X).` alone runs into
      the depth bound and answers false. */
  lemma NoFactNoProof(program: seq<Rule>, query: Atom, maxDepth: int)
    requires forall k :: 0 <= k < |program| ==> |program[k].body| > 0
    ensures !Prove(program, query, maxDepth).proved
  {
    ProveSoundComplete(program, query, maxDepth);
    forall path
      ensures !Succeeds(program, maxDepth, [query], map[], 0, path)
    {
      NoFactNoDerivation(program, [query], map[], path);
    }
  }

  /** A fact whose head unifies with the query proves it once the bound
      allows one step; in particular a fact equal to the query does. */
  lemma FactProves(program: seq<Rule>, query: Atom, maxDepth: int, i: nat)
    requires 1 <= maxDepth && i < |program| && |program[i].body| == 0
    requires UnifyAtoms(program[i].head, query, map[]).Some?
    ensures Prove(program, query, maxDepth).proved
  {
    EmptyResolvesToSelf(query);
    var path: seq<nat> := [i];
    var s2 := UnifyAtoms(program[i].head, query, map[]).value;
    assert program[i].body + [query][1..] == [];
    assert path[1..] == [];
    assert Succeeds(program, maxDepth, [query], map[], 0, path);
    ProveSoundComplete(program, query, maxDepth);
  }

  lemma FactInProgramProves(program: seq<Rule>, query: Atom, maxDepth: int)
    requires 1 <= maxDepth && Rule(query, []) in program
    ensures Prove(program, query, maxDepth).proved
  {
    var i :| 0 <= i < |program| && program[i] == Rule(query, []);
    EmptyResolvesToSelf(query);
    UnifyAtomsSelf(query, map[]);
    FactProves(program, query, maxDepth, i);
  }

  /** When the first clause is a fact that unifies with the query, the answer
      is true with a two-line trace: the goal and that fact. */
  lemma FirstFactTrace(program: seq<Rule>, query: Atom, maxDepth: int)
    requires 1 <= maxDepth && |program| > 0 && |program[0].body| == 0
    requires UnifyAtoms(program[0].head, query, map[]).Some?
    ensures var s2 := UnifyAtoms(program[0].head, query, map[]).value;
      Prove(program, query, maxDepth)
      == Answer(true, ["Goal: " + AtomStr(query), "  Matched FACT: " + AtomStr(ApplyAtom(program[0].head, s2))])
  {
    EmptyResolvesToSelf(query);
    var s2 := UnifyAtoms(program[0].head, query, map[]).value;
    var t2 := [GoalLine(query), MatchLine(program[0], s2)];
    assert program[0].body + [query][1..] == [];
    assert Dfs(program, maxDepth, [], s2, 1, t2) == Outcome(Some(s2), t2);
    assert TryClauses(program, maxDepth, [query], map[], 0, [], 0) == Outcome(Some(s2), t2);
  }

}

=== FILE: optional.dfy ===
/** The result of an operation that may produce nothing: Python's `Optional[T]`,
    where `None` is the absence of a value. */
module Optional {

  datatype Option<+T> = None | Some(value: T)

}

=== FILE: parser.dfy ===
/** The textual Horn-clause parser: one clause per line, `%` comments,
    `:-` between head and body, body atoms separated by commas outside
    parentheses.  It never fails: malformed text still yields atoms. */
module Parser {

  import opened Optional
  import opened Text
  import opened Terms

  /** `[x.strip() for x in ps if x.strip()]`. */
  function StripNonEmpty(ps: seq<string>): (r: seq<string>)
    ensures |r| <= |ps|
    ensures forall k :: 0 <= k < |r| ==> r[k] != "" && Trimmed(r[k])
  {
    if |ps| == 0 then []
    else
      var t := Strip(ps[0]);
      if t != "" then [t] + StripNonEmpty(ps[1..]) else StripNonEmpty(ps[1..])
  }

  lemma StripNonEmptyCons(x: string, ps: seq<string>)
    ensures StripNonEmpty([x] + ps) ==
      (if Strip(x) != "" then [Strip(x)] + StripNonEmpty(ps) else StripNonEmpty(ps))
  {
    assert ([x] + ps)[1..] == ps;
  }

  /** `_split_args`: split on every comma, trim, drop the empty pieces. */
  function SplitArgs(argText: string): (r: seq<Term>)
    ensures forall k :: 0 <= k < |r| ==> r[k] != "" && Trimmed(r[k]) && ',' !in r[k]
  {
    var ps := Split(argText, ',');
    StripNonEmptyNoComma(ps);
    StripNonEmpty(ps)
  }

  lemma {:induction false} StripNonEmptyNoComma(ps: seq<string>)
    requires forall k :: 0 <= k < |ps| ==> ',' !in ps[k]
    ensures forall k :: 0 <= k < |StripNonEmpty(ps)| ==> ',' !in StripNonEmpty(ps)[k]
    decreases |ps|
  {
    if |ps| > 0 {
      StripNonEmptyNoComma(ps[1..]);
      StripKeepsOut(ps[0], ',');
    }
  }

  /** The list comprehension of `_split_args` keeps the stripped pieces that
      are not empty, piece by piece and in order. */
  lemma {:induction false} StripNonEmptyAppend(ps: seq<string>, qs: seq<string>)
    ensures StripNonEmpty(ps + qs) == StripNonEmpty(ps) + StripNonEmpty(qs)
    decreases |ps|
  {
    if |ps| == 0 {
      assert ps + qs == qs;
    } else {
      TailOfAppend(ps, qs);
      StripNonEmptyAppend(ps[1..], qs);
    }
  }

  lemma StripNonEmptySingle(x: string)
    ensures StripNonEmpty([x]) == (if Strip(x) != "" then [Strip(x)] else [])
  {
    assert [x][1..] == [];
  }

  /** `_split_args` read one comma at a time: the text before the first comma
      gives its stripped self, unless that is empty, followed by the
      arguments of the rest; text without a comma gives at most one argument. */
  lemma SplitArgsStep(x: string, y: string)
    requires ',' !in x
    ensures SplitArgs(x) == (if Strip(x) != "" then [Strip(x)] else [])
    ensures SplitArgs(x + [','] + y) == SplitArgs(x) + SplitArgs(y)
  {
    SplitNoSep(x, ',');
    StripNonEmptySingle(x);
    SplitAtSep(x, y, ',');
    StripNonEmptyAppend([x], Split(y, ','));
  }

  /** `_parse_atom`: trim the text and its trailing dots, then read what is
      left with `ParseCleanAtom`. */
  function ParseAtom(text: string): (a: Atom)
    ensures '(' !in a.pred
    ensures forall k :: 0 <= k < |a.args| ==> a.args[k] != "" && Trimmed(a.args[k]) && ',' !in a.args[k]
    ensures !Contains(RStripDots(Strip(text)), "(") ==> a == Atom(RStripDots(Strip(text)), [])
    ensures var t := RStripDots(Strip(text));
      Contains(t, "(") ==>
        var i := IndexOf(t, "(").value;
        a.pred == Strip(t[..i]) && a.args == SplitArgs(BeforeLast(t[i + 1..], ')'))
  {
    ParseCleanAtom(RStripDots(Strip(text)))
  }

  /** The body of `_parse_atom` after trimming: text without `(` is a
      zero-arity atom; otherwise the predicate is the trimmed text before the
      first `(` and the arguments come from the text between that `(` and
      the last `)` (or the end, when there is none). */
  function ParseCleanAtom(t: string): (a: Atom)
    ensures '(' !in a.pred
    ensures forall k :: 0 <= k < |a.args| ==> a.args[k] != "" && Trimmed(a.args[k]) && ',' !in a.args[k]
    ensures !Contains(t, "(") ==> a == Atom(t, [])
    ensures Contains(t, "(") ==>
      var i := IndexOf(t, "(").value;
      a.pred == Strip(t[..i]) && a.args == SplitArgs(BeforeLast(t[i + 1..], ')'))
  {
    match IndexOf(t, "(")
    case None =>
      NoOccurrenceOfChar(t, '(', |t|);
      Atom(t, [])
    case Some(i) =>
      var pred := Strip(t[..i]);
      NoOccurrenceOfChar(t, '(', i);
      StripKeepsOut(t[..i], '(');
      Atom(pred, SplitArgs(BeforeLast(t[i + 1..], ')')))
  }

  lemma NoOccurrenceOfChar(t: string, c: char, n: nat)
    requires n <= |t|
    requires forall j :: 0 <= j < n ==> !OccursAt(t, [c], j)
    ensures c !in t[..n]
  {
    forall j | 0 <= j < n
      ensures t[j] != c
    {
      assert !OccursAt(t, [c], j);
      assert t[j..j + 1] == [t[j]];
    }
  }

  /** `_parse_atom` strips its input first, so stripping before it changes
      nothing. */
  lemma ParseAtomStripped(text: string)
    ensures ParseAtom(Strip(text)) == ParseAtom(text)
  {
    assert Trimmed(Strip(text));
    assert Strip(Strip(text)) == Strip(text);
  }

  /** `_parse_atom` never returns a predicate that starts with whitespace:
      both of its cases read the predicate from stripped text. */
  lemma ParseAtomPredStart(text: string)
    ensures var a := ParseAtom(text); |a.pred| > 0 ==> !IsSpace(a.pred[0])
  {
    var t := RStripDots(Strip(text));
    if |t| > 0 {
      assert t[0] == Strip(text)[0];
    }
  }

  /** The parenthesis depth after reading `c` at depth `depth`. */
  function DepthAfterChar(c: char, depth: int): int {
    if c == '(' then depth + 1 else if c == ')' then depth - 1 else depth
  }

  /** The parenthesis depth after reading all of `s` from depth `d`. */
  function DepthAfter(s: string, d: int): int
    decreases |s|
  {
    if |s| == 0 then d else DepthAfter(s[1..], DepthAfterChar(s[0], d))
  }

  /** Reading `s` from depth `d` meets no comma at depth zero. */
  predicate NoTopComma(s: string, d: int)
    decreases |s|
  {
    |s| == 0 ||
      (var d' := DepthAfterChar(s[0], d);
       !(s[0] == ',' && d' == 0) && NoTopComma(s[1..], d'))
  }

  /** The loop of `_split_body` before trimming: cut at every comma read at
      depth zero, starting at depth `depth`.  The pieces and the cut commas
      put back together give the input. */
  function RawSegments(s: string, depth: int): (r: seq<string>)
    ensures |r| >= 1 && Join(r, ",") == s
    decreases |s|
  {
    if |s| == 0 then [""]
    else
      var d := DepthAfterChar(s[0], depth);
      var rest := RawSegments(s[1..], d);
      if s[0] == ',' && d == 0 then
        assert [""] + rest == [""] + rest[..1] + rest[1..];
        [""] + rest
      else
        var r := [[s[0]] + rest[0]] + rest[1..];
        assert Join(r, ",") == s by {
          if |rest| > 1 {
            assert r[1..] == rest[1..];
          }
        }
        r
  }

  /** `r` cuts `s`, read from depth `depth`, exactly where `_split_body`
      does: the pieces and commas rebuild `s`, no piece holds a comma read
      at depth zero, and every piece but the last ends back at depth zero,
      where the next one starts. */
  predicate IsCutting(r: seq<string>, s: string, depth: int) {
    && |r| >= 1 && Join(r, ",") == s
    && NoTopComma(r[0], depth)
    && (|r| > 1 ==> DepthAfter(r[0], depth) == 0)
    && (forall k :: 1 <= k < |r| ==> NoTopComma(r[k], 0))
    && (forall k :: 1 <= k < |r| - 1 ==> DepthAfter(r[k], 0) == 0)
  }

  /** The pieces of `_split_body`'s loop are the one cutting of the text at
      its depth-zero commas. */
  lemma RawSegmentsSpec(r: seq<string>, s: string, depth: int)
    ensures IsCutting(r, s, depth) <==> r == RawSegments(s, depth)
  {
    RawSegmentsCuts(s, depth);
    if IsCutting(r, s, depth) {
      RawSegmentsUnique(r, s, depth);
    }
  }

  lemma {:induction false} RawSegmentsCuts(s: string, depth: int)
    ensures IsCutting(RawSegments(s, depth), s, depth)
    decreases |s|
  {
    if |s| > 0 {
      var d := DepthAfterChar(s[0], depth);
      RawSegmentsCuts(s[1..], d);
      var rest := RawSegments(s[1..], d);
      var r := RawSegments(s, depth);
      if s[0] == ',' && d == 0 {
        assert r == [""] + rest;
        assert forall k :: 1 <= k < |r| ==> r[k] == rest[k - 1];
      } else {
        assert r == [[s[0]] + rest[0]] + rest[1..];
        assert r[0][0] == s[0] && r[0][1..] == rest[0];
        assert DepthAfter(r[0], depth) == DepthAfter(rest[0], d);
        assert forall k :: 1 <= k < |r| ==> r[k] == rest[k];
      }
    }
  }

  lemma {:induction false} RawSegmentsUnique(r: seq<string>, s: string, depth: int)
    requires IsCutting(r, s, depth)
    ensures r == RawSegments(s, depth)
    decreases |s|
  {
    if |r| > 1 {
      assert Join(r, ",") == r[0] + "," + Join(r[1..], ",");
    }
    if |s| == 0 {
      assert |r| == 1;
    } else if |r[0]| > 0 {
      var d := DepthAfterChar(s[0], depth);
      var x := r[0][1..];
      var r' := [x] + r[1..];
      assert r[0] == [s[0]] + x;
      if |r| > 1 {
        assert Join(r', ",") == x + "," + Join(r[1..], ",");
        assert s == [s[0]] + (x + "," + Join(r[1..], ","));
      }
      assert Join(r', ",") == s[1..];
      assert NoTopComma(x, d) && DepthAfter(x, d) == DepthAfter(r[0], depth);
      assert forall k :: 1 <= k < |r'| ==> r'[k] == r[k];
      RawSegmentsUnique(r', s[1..], d);
      assert !(s[0] == ',' && d == 0);
      assert RawSegments(s, depth) == [[s[0]] + x] + r[1..];
    } else {
      assert |r| > 1 && s[0] == ',';
      var r' := r[1..];
      assert Join(r', ",") == s[1..];
      assert forall k :: 1 <= k < |r'| ==> r'[k] == r[k + 1];
      RawSegmentsUnique(r', s[1..], 0);
      assert RawSegments(s, depth) == [""] + r';
    }
  }

  /** `[x.strip() for x in ps]`. */
  function StripAll(ps: seq<string>): (r: seq<string>)
    ensures |r| == |ps|
  {
    if |ps| == 0 then [] else [Strip(ps[0])] + StripAll(ps[1..])
  }

  /** `StripAll` strips each piece where it stands. */
  lemma {:induction false} StripAllAt(ps: seq<string>)
    ensures forall k :: 0 <= k < |ps| ==> StripAll(ps)[k] == Strip(ps[k])
    decreases |ps|
  {
    if |ps| > 0 {
      StripAllAt(ps[1..]);
    }
  }

  /** `_split_body`: the trimmed top-level pieces of a rule body; only a final
      piece that is empty after trimming is dropped. */
  function SplitBody(body: string): (r: seq<string>)
    ensures var segs := RawSegments(body, 0);
      && |segs| - 1 <= |r| <= |segs|
      && (forall k :: 0 <= k < |r| ==> r[k] == Strip(segs[k]))
      && (|r| == |segs| <==> Strip(segs[|segs| - 1]) != "")
  {
    StripAllAt(RawSegments(body, 0));
    var segs := StripAll(RawSegments(body, 0));
    if segs[|segs| - 1] == "" then
      var r := segs[..|segs| - 1];
      assert forall k :: 0 <= k < |r| ==> r[k] == segs[k];
      r
    else
      segs
  }

  /** `_parse_atom` over each piece of a body. */
  function ParseAtoms(texts: seq<string>): (r: seq<Atom>)
    ensures |r| == |texts|
    ensures forall k :: 0 <= k < |texts| ==> r[k] == ParseAtom(texts[k])
  {
    if |texts| == 0 then [] else [ParseAtom(texts[0])] + ParseAtoms(texts[1..])
  }

  /** The clause written on one trimmed line: split at the first `:-` into a
      head and a body whose trailing dots are dropped, or a fact when the line
      has no `:-`. */
  function ParseClauseLine(line: string): (r: Rule)
    ensures !Contains(line, ":-") ==> r.body == [] && r.head == ParseAtom(line)
    ensures Contains(line, ":-") ==> r.head == ParseAtom(line[..IndexOf(line, ":-").value])
  {
    match IndexOf(line, ":-")
    case None => Rule(ParseAtom(line), [])
    case Some(i) =>
      ParseAtomStripped(line[..i]);
      Rule(ParseAtom(Strip(line[..i])), ParseAtoms(SplitBody(RStripDots(Strip(line[i + 2..])))))
  }

  /** A line that holds a clause: non-empty once trimmed and not a `%` comment. */
  predicate IsClauseLine(line: string) {
    var t := Strip(line);
    t != "" && t[0] != '%'
  }

  /** The trimmed clause lines, in order. */
  function ClauseLines(lines: seq<string>): (r: seq<string>)
    ensures |r| <= |lines|
    ensures forall k :: 0 <= k < |r| ==> r[k] != "" && r[k][0] != '%' && Trimmed(r[k])
  {
    if |lines| == 0 then []
    else if IsClauseLine(lines[0]) then [Strip(lines[0])] + ClauseLines(lines[1..])
    else ClauseLines(lines[1..])
  }

  /** `ParseClauseLine` over each clause line. */
  function ParseClauseLines(lines: seq<string>): (r: seq<Rule>)
    ensures |r| == |lines|
    ensures forall k :: 0 <= k < |lines| ==> r[k] == ParseClauseLine(lines[k])
  {
    if |lines| == 0 then [] else [ParseClauseLine(lines[0])] + ParseClauseLines(lines[1..])
  }

  /** The loop of `parse_program` over a list of lines: blank and comment
      lines are skipped, every other line is parsed as a clause. */
  function ParseLines(lines: seq<string>): (r: seq<Rule>)
    ensures r == ParseClauseLines(ClauseLines(lines))
    decreases |lines|
  {
    if |lines| == 0 then []
    else
      var line := Strip(lines[0]);
      var rest := ParseLines(lines[1..]);
      if line == "" || line[0] == '%' then
        rest
      else
        assert ClauseLines(lines) == [line] + ClauseLines(lines[1..]);
        assert ([line] + ClauseLines(lines[1..]))[1..] == ClauseLines(lines[1..]);
        [ParseClauseLine(line)] + rest
  }

  /** `parse_program`: one rule per clause line of the text, in source order. */
  function ParseProgram(text: string): (r: seq<Rule>)
    ensures |r| == |ClauseLines(Lines(text))|
    ensures forall k :: 0 <= k < |r| ==> r[k] == ParseClauseLine(ClauseLines(Lines(text))[k])
  {
    ParseLines(Lines(text))
  }

  /** Parsing is line by line: the rules of two blocks of lines are the rules
      of the first block followed by those of the second. */
  lemma {:induction false} ParseLinesAppend(ls1: seq<string>, ls2: seq<string>)
    ensures ParseLines(ls1 + ls2) == ParseLines(ls1) + ParseLines(ls2)
  {
    ClauseLinesAppend(ls1, ls2);
    ParseClauseLinesAppend(ClauseLines(ls1), ClauseLines(ls2));
  }

  lemma {:induction false} ClauseLinesAppend(ls1: seq<string>, ls2: seq<string>)
    ensures ClauseLines(ls1 + ls2) == ClauseLines(ls1) + ClauseLines(ls2)
    decreases |ls1|
  {
    if |ls1| == 0 {
      assert ls1 + ls2 == ls2;
    } else {
      assert (ls1 + ls2)[1..] == ls1[1..] + ls2;
      ClauseLinesAppend(ls1[1..], ls2);
    }
  }

  lemma {:induction false} ParseClauseLinesAppend(ls1: seq<string>, ls2: seq<string>)
    ensures ParseClauseLines(ls1 + ls2) == ParseClauseLines(ls1) + ParseClauseLines(ls2)
    decreases |ls1|
  {
    if |ls1| == 0 {
      assert ls1 + ls2 == ls2;
    } else {
      TailOfAppend(ls1, ls2);
      ParseClauseLinesAppend(ls1[1..], ls2);
    }
  }

  /** Blank lines and `%` comment lines contribute no rule. */
  lemma SkippedLine(line: string)
    requires Strip(line) == "" || Strip(line)[0] == '%'
    ensures ParseLines([line]) == []
  {
  }

}

=== FILE: printing.dfy ===
/** Printing clauses as program text, and the round trip: parsing the printed
    form of well-formed clauses gives the clauses back. */
module Printing {

  import opened Optional
  import opened Text
  import opened Terms
  import opened Parser

  /** A character a printable token may hold: no whitespace, no parenthesis,
      no comma and no colon (so no `:-`). */
  predicate PlainChar(c: char) {
    !IsSpace(c) && c != '(' && c != ')' && c != ',' && c != ':'
  }

  /** A predicate name or argument that survives printing and parsing: non-empty,
      plain, not ending in a dot (trailing dots are stripped) and not starting
      with `%` (a comment marker at the start of a line). */
  predicate WfToken(t: string) {
    && |t| > 0
    && (forall c :: c in t ==> PlainChar(c))
    && t[|t| - 1] != '.'
    && t[0] != '%'
  }

  predicate WfAtom(a: Atom) {
    WfToken(a.pred) && forall k :: 0 <= k < |a.args| ==> WfToken(a.args[k])
  }

  predicate WfRule(r: Rule) {
    WfAtom(r.head) && forall k :: 0 <= k < |r.body| ==> WfAtom(r.body[k])
  }

  /** The program line of a clause: `h.` for a fact, `h :- b1, b2.` for a rule. */
  function RuleLine(r: Rule): string {
    if |r.body| == 0 then AtomStr(r.head) + "."
    else AtomStr(r.head) + " :- " + Join(AtomStrs(r.body), ", ") + "."
  }

  function RuleLines(program: seq<Rule>): (r: seq<string>)
    ensures |r| == |program|
    ensures forall k :: 0 <= k < |program| ==> r[k] == RuleLine(program[k])
  {
    if |program| == 0 then [] else [RuleLine(program[0])] + RuleLines(program[1..])
  }

  /** The program text: one clause per line. */
  function Render(program: seq<Rule>): string {
    Join(RuleLines(program), "\n")
  }

  // ---------------------------------------------------------------------------
  // Characters of joined and printed text

  lemma {:induction false} JoinChars(ps: seq<string>, sep: string, c: char)
    requires c in Join(ps, sep)
    ensures c in sep || exists k :: 0 <= k < |ps| && c in ps[k]
    decreases |ps|
  {
    if |ps| > 1 {
      if c !in ps[0] && c !in sep {
        JoinChars(ps[1..], sep, c);
        var k :| 0 <= k < |ps[1..]| && c in ps[1..][k];
        assert c in ps[k + 1];
      }
    }
  }

  /** A character of a joined text outside the separator comes from a part. */
  lemma JoinCharSource(ps: seq<string>, sep: string, c: char) returns (k: nat)
    requires c in Join(ps, sep) && c !in sep
    ensures k < |ps| && c in ps[k]
  {
    JoinChars(ps, sep, c);
    k :| 0 <= k < |ps| && c in ps[k];
  }

  /** The characters a printed atom may hold. */
  predicate AtomChar(c: char) {
    PlainChar(c) || c == ' ' || c == '(' || c == ')' || c == ','
  }

  lemma AtomStrChars(a: Atom)
    requires WfAtom(a)
    ensures forall c :: c in AtomStr(a) ==> AtomChar(c)
    ensures forall c :: c in Join(a.args, ", ") ==> c != '(' && c != ')'
  {
    forall c | c in Join(a.args, ", ")
      ensures PlainChar(c) || c == ' ' || c == ','
    {
      JoinChars(a.args, ", ", c);
    }
  }

  lemma AtomStrsChars(atoms: seq<Atom>)
    requires forall k :: 0 <= k < |atoms| ==> WfAtom(atoms[k])
    ensures forall c :: c in Join(AtomStrs(atoms), ", ") ==> AtomChar(c)
  {
    forall c | c in Join(AtomStrs(atoms), ", ")
      ensures AtomChar(c)
    {
      AtomStrsCharAt(atoms, c);
    }
  }

  lemma AtomStrsCharAt(atoms: seq<Atom>, c: char)
    requires forall k :: 0 <= k < |atoms| ==> WfAtom(atoms[k])
    requires c in Join(AtomStrs(atoms), ", ")
    ensures AtomChar(c)
  {
    if c != ',' && c != ' ' {
      var k := JoinCharSource(AtomStrs(atoms), ", ", c);
      assert c in AtomStr(atoms[k]);
      AtomStrChars(atoms[k]);
      assert WfAtom(atoms[k]);
    }
  }

  /** A printed atom is non-empty, starts with its predicate's first character
      and ends in neither whitespace nor a dot. */
  lemma AtomStrEnds(a: Atom)
    requires WfAtom(a)
    ensures var s := AtomStr(a);
      |s| > 0 && s[0] == a.pred[0] && Trimmed(s) && s[|s| - 1] != '.'
  {
    assert PlainChar(a.pred[0]) by { assert a.pred[0] in a.pred; }
    assert PlainChar(a.pred[|a.pred| - 1]) by { assert a.pred[|a.pred| - 1] in a.pred; }
  }

  // ---------------------------------------------------------------------------
  // Finding the first occurrence

  lemma IndexOfFirstChar(s: string, pat: string)
    requires |pat| > 0
    ensures IndexOf(s, pat).Some? ==> s[IndexOf(s, pat).value] == pat[0]
  {
    if IndexOf(s, pat).Some? {
      var j := IndexOf(s, pat).value;
      assert s[j..j + |pat|][0] == s[j];
    }
  }

  lemma FirstOccurrence(s: string, pat: string, i: nat)
    requires |pat| > 0 && OccursAt(s, pat, i)
    requires pat[0] !in s[..i]
    ensures IndexOf(s, pat) == Some(i)
  {
    IndexOfFirstChar(s, pat);
    forall k | 0 <= k < i
      ensures s[k] != pat[0]
    {
      assert s[..i][k] == s[k];
    }
  }

  lemma AbsentPattern(s: string, pat: string)
    requires |pat| > 0 && pat[0] !in s
    ensures IndexOf(s, pat).None?
  {
    IndexOfFirstChar(s, pat);
  }

  // ---------------------------------------------------------------------------
  // Splitting arguments

  lemma StripSpacePrefix(x: string)
    ensures Strip(" " + x) == Strip(x)
  {
    assert (" " + x)[1..] == x;
    assert LStrip(" " + x) == LStrip(x);
  }

  /** What a well-formed token is free of. */
  lemma TokenFacts(t: string)
    requires WfToken(t)
    ensures Trimmed(t) && Strip(t) == t
    ensures ',' !in t && '(' !in t && ')' !in t && ':' !in t
  {
    assert PlainChar(t[0]) by { assert t[0] in t; }
    assert PlainChar(t[|t| - 1]) by { assert t[|t| - 1] in t; }
  }

  lemma SplitArgsSpacePrefix(y: string)
    ensures StripNonEmpty(Split(" " + y, ',')) == StripNonEmpty(Split(y, ','))
  {
    var q := Split(y, ',');
    assert (" " + y)[1..] == y;
    assert Split(" " + y, ',') == [" " + q[0]] + q[1..];
    StripSpacePrefix(q[0]);
    StripNonEmptyCons(" " + q[0], q[1..]);
    StripNonEmptyCons(q[0], q[1..]);
    ConsSplit(q);
  }

  /** Splitting `", ".join(args)` on commas and trimming gives `args` back. */
  lemma {:induction false} SplitArgsJoin(args: seq<Term>)
    requires |args| > 0 && forall k :: 0 <= k < |args| ==> WfToken(args[k])
    ensures SplitArgs(Join(args, ", ")) == args
    decreases |args|
  {
    StripSplitJoin(args);
  }

  lemma {:induction false} StripSplitJoin(args: seq<Term>)
    requires |args| > 0 && forall k :: 0 <= k < |args| ==> WfToken(args[k])
    ensures StripNonEmpty(Split(Join(args, ", "), ',')) == args
    decreases |args|
  {
    var a0 := args[0];
    TokenFacts(a0);
    if |args| == 1 {
      SplitNoSep(a0, ',');
      StripNonEmptyCons(a0, []);
    } else {
      var j' := Join(args[1..], ", ");
      StripSplitJoin(args[1..]);
      JoinSplitAtFirst(args);
      SplitAtSep(a0, " " + j', ',');
      StripNonEmptyCons(a0, Split(" " + j', ','));
      SplitArgsSpacePrefix(j');
      assert [a0] + args[1..] == args;
    }
  }

  lemma JoinSplitAtFirst(args: seq<Term>)
    requires |args| > 1
    ensures Join(args, ", ") == args[0] + [','] + (" " + Join(args[1..], ", "))
  {
  }

  /** Parsing the printed form of a well-formed atom gives the atom back. */
  lemma ParseAtomRoundTrip(a: Atom)
    requires WfAtom(a)
    ensures ParseAtom(AtomStr(a)) == a
  {
    AtomStrEnds(a);
    var s := AtomStr(a);
    CleanText(s);
    if |a.args| == 0 {
      TokenFacts(a.pred);
      AbsentPattern(s, "(");
    } else {
      ParseCleanWithArgs(a);
    }
  }

  lemma ParseCleanWithArgs(a: Atom)
    requires WfAtom(a) && |a.args| > 0
    ensures ParseCleanAtom(AtomStr(a)) == a
  {
    var j := Join(a.args, ", ");
    assert AtomStr(a) == a.pred + "(" + j + ")";
    TokenFacts(a.pred);
    ParenCut(a.pred, j);
    ArgsBeforeParen(j);
    SplitArgsJoin(a.args);
  }

  /** The first `(` of `p(j)` is the one after `p` when `p` has none. */
  lemma ParenCut(p: string, j: string)
    requires '(' !in p
    ensures var s := p + "(" + j + ")";
      IndexOf(s, "(") == Some(|p|) && s[..|p|] == p && s[|p| + 1..] == j + ")"
  {
    var s := p + "(" + j + ")";
    assert s[..|p|] == p;
    assert s[|p|..|p| + 1] == "(";
    FirstOccurrence(s, "(", |p|);
    assert s[|p| + 1..] == j + ")";
  }

  lemma ArgsBeforeParen(j: string)
    ensures BeforeLast(j + ")", ')') == j
  {
    assert LastIndexOf(j + ")", ')') == Some(|j|);
    assert (j + ")")[..|j|] == j;
  }

  /** The same with the trailing dot of a fact or a query. */
  lemma ParseAtomDotRoundTrip(a: Atom)
    requires WfAtom(a)
    ensures ParseAtom(AtomStr(a) + ".") == a
  {
    AtomStrEnds(a);
    var s := AtomStr(a);
    assert Strip(s + ".") == s + "." by {
      assert Trimmed(s + ".");
    }
    assert RStripDots(s + ".") == RStripDots(s) by {
      assert (s + ".")[..|s|] == s;
    }
    assert Strip(s) == s;
    ParseAtomRoundTrip(a);
  }

  // ---------------------------------------------------------------------------
  // Splitting bodies

  lemma {:induction false} ReadAppend(x: string, y: string, d: int)
    ensures DepthAfter(x + y, d) == DepthAfter(y, DepthAfter(x, d))
    ensures NoTopComma(x, d) && NoTopComma(y, DepthAfter(x, d)) ==> NoTopComma(x + y, d)
    decreases |x|
  {
    if |x| == 0 {
      assert x + y == y;
    } else {
      assert (x + y)[1..] == x[1..] + y;
      ReadAppend(x[1..], y, DepthAfterChar(x[0], d));
    }
  }

  /** Text without parentheses leaves the depth alone, and away from depth
      zero none of its commas cuts. */
  lemma {:induction false} ReadNoParens(s: string, d: int)
    requires '(' !in s && ')' !in s
    ensures DepthAfter(s, d) == d
    ensures d != 0 || ',' !in s ==> NoTopComma(s, d)
    decreases |s|
  {
    if |s| > 0 {
      assert s[0] in s;
      assert forall c :: c in s[1..] ==> c in s;
      ReadNoParens(s[1..], d);
    }
  }

  /** A printed atom closes every parenthesis it opens and has no comma outside
      them. */
  lemma AtomStrBalanced(a: Atom)
    requires WfAtom(a)
    ensures DepthAfter(AtomStr(a), 0) == 0 && NoTopComma(AtomStr(a), 0)
  {
    TokenFacts(a.pred);
    ReadNoParens(a.pred, 0);
    if |a.args| > 0 {
      var j := Join(a.args, ", ");
      AtomStrChars(a);
      ReadNoParens(j, 1);
      ReadAppend(a.pred, "(", 0);
      ReadAppend(a.pred + "(", j, 0);
      ReadAppend(a.pred + "(" + j, ")", 0);
    }
  }

  /** Text that cuts nowhere joins the first raw segment of what follows. */
  lemma {:induction false} RawSegmentsPrefix(x: string, y: string, d: int)
    requires NoTopComma(x, d)
    ensures var r := RawSegments(y, DepthAfter(x, d));
      RawSegments(x + y, d) == [x + r[0]] + r[1..]
    decreases |x|
  {
    if |x| == 0 {
      assert x + y == y;
      var r := RawSegments(y, d);
      assert [r[0]] + r[1..] == r;
      assert x + r[0] == r[0];
    } else {
      var d' := DepthAfterChar(x[0], d);
      assert (x + y)[1..] == x[1..] + y;
      RawSegmentsPrefix(x[1..], y, d');
      var r := RawSegments(y, DepthAfter(x, d));
      var rest := RawSegments(x[1..] + y, d');
      assert rest == [x[1..] + r[0]] + r[1..];
      assert rest[0] == x[1..] + r[0] && rest[1..] == r[1..];
      assert [x[0]] + (x[1..] + r[0]) == x + r[0];
    }
  }

  lemma StripAllCons(x: string, ps: seq<string>)
    ensures StripAll([x] + ps) == [Strip(x)] + StripAll(ps)
  {
    assert ([x] + ps)[1..] == ps;
  }

  lemma RawSegmentsCommaSpace(j: string)
    ensures var q := RawSegments(j, 0);
      RawSegments("," + (" " + j), 0) == [""] + ([" " + q[0]] + q[1..])
  {
    assert ("," + (" " + j))[1..] == " " + j;
    assert (" " + j)[1..] == j;
  }

  lemma StripAllSpaced(s0: string, q: seq<string>)
    requires Trimmed(s0) && |q| > 0
    ensures StripAll([s0] + ([" " + q[0]] + q[1..])) == [s0] + StripAll(q)
  {
    ConsSplit(q);
    StripAllSpacedParts(s0, q[0], q[1..]);
  }

  lemma StripAllSpacedParts(s0: string, y: string, rest: seq<string>)
    requires Trimmed(s0)
    ensures StripAll([s0] + ([" " + y] + rest)) == [s0] + StripAll([y] + rest)
  {
    StripSpacePrefix(y);
    StripAllSwap(s0, " " + y, y, rest);
  }

  lemma StripAllSwap(s0: string, x: string, y: string, rest: seq<string>)
    requires Strip(s0) == s0 && Strip(x) == Strip(y)
    ensures StripAll([s0] + ([x] + rest)) == [s0] + StripAll([y] + rest)
  {
    StripAllCons(s0, [x] + rest);
    StripAllCons(x, rest);
    StripAllCons(y, rest);
  }

  lemma RawSegmentsJoinStep(strs: seq<string>)
    requires |strs| > 1 && NoTopComma(strs[0], 0) && DepthAfter(strs[0], 0) == 0
    ensures var q := RawSegments(Join(strs[1..], ", "), 0);
      RawSegments(Join(strs, ", "), 0) == [strs[0]] + ([" " + q[0]] + q[1..])
  {
    var s0 := strs[0];
    var j' := Join(strs[1..], ", ");
    JoinSplitAtFirst(strs);
    assert s0 + [','] + (" " + j') == s0 + ("," + (" " + j'));
    RawSegmentsPrefix(s0, "," + (" " + j'), 0);
    RawSegmentsCommaSpace(j');
    assert s0 + "" == s0;
  }

  lemma RawSegmentsSingle(s0: string)
    requires Trimmed(s0) && DepthAfter(s0, 0) == 0 && NoTopComma(s0, 0)
    ensures StripAll(RawSegments(Join([s0], ", "), 0)) == [s0]
  {
    RawSegmentsPrefix(s0, "", 0);
    assert s0 + "" == s0;
    StripAllCons(s0, []);
  }

  /** The raw top-level segments of `", ".join(strs)`, trimmed, are `strs`. */
  lemma {:induction false} RawSegmentsJoin(strs: seq<string>)
    requires |strs| > 0
    requires forall k :: 0 <= k < |strs| ==>
      Trimmed(strs[k]) && DepthAfter(strs[k], 0) == 0 && NoTopComma(strs[k], 0)
    ensures StripAll(RawSegments(Join(strs, ", "), 0)) == strs
    decreases |strs|
  {
    var s0 := strs[0];
    if |strs| == 1 {
      RawSegmentsSingle(s0);
    } else {
      RawSegmentsJoin(strs[1..]);
      RawSegmentsJoinStep(strs);
      StripAllSpaced(s0, RawSegments(Join(strs[1..], ", "), 0));
      assert [s0] + strs[1..] == strs;
    }
  }

  /** Splitting the printed body of a rule gives its printed atoms back. */
  lemma SplitBodyRoundTrip(body: seq<Atom>)
    requires |body| > 0 && forall k :: 0 <= k < |body| ==> WfAtom(body[k])
    ensures SplitBody(Join(AtomStrs(body), ", ")) == AtomStrs(body)
  {
    var strs := AtomStrs(body);
    forall k | 0 <= k < |strs|
      ensures Trimmed(strs[k]) && DepthAfter(strs[k], 0) == 0 && NoTopComma(strs[k], 0)
      ensures strs[k] != ""
    {
      AtomStrEnds(body[k]);
      AtomStrBalanced(body[k]);
    }
    RawSegmentsJoin(strs);
  }

  /** `ParseAtoms` undoes `AtomStrs` on well-formed atoms. */
  lemma {:induction false} ParseAtomsRoundTrip(atoms: seq<Atom>)
    requires forall k :: 0 <= k < |atoms| ==> WfAtom(atoms[k])
    ensures ParseAtoms(AtomStrs(atoms)) == atoms
  {
    forall k | 0 <= k < |atoms|
      ensures ParseAtoms(AtomStrs(atoms))[k] == atoms[k]
    {
      ParseAtomRoundTrip(atoms[k]);
    }
  }

  // ---------------------------------------------------------------------------
  // Clause lines

  lemma {:induction false} JoinEnds(ps: seq<string>, sep: string)
    requires |ps| > 0 && |ps[0]| > 0 && |ps[|ps| - 1]| > 0
    ensures var j := Join(ps, sep);
      |j| > 0 && j[0] == ps[0][0] && j[|j| - 1] == ps[|ps| - 1][|ps[|ps| - 1]| - 1]
  {
    JoinLast(ps, sep);
  }

  lemma {:induction false} JoinLast(ps: seq<string>, sep: string)
    requires |ps| > 0 && |ps[|ps| - 1]| > 0
    ensures var j := Join(ps, sep);
      |j| > 0 && j[|j| - 1] == ps[|ps| - 1][|ps[|ps| - 1]| - 1]
    decreases |ps|
  {
    if |ps| > 1 {
      JoinLast(ps[1..], sep);
    }
  }

  /** The first and last characters of a printed body. */
  lemma BodyTextEnds(body: seq<Atom>)
    requires |body| > 0 && forall k :: 0 <= k < |body| ==> WfAtom(body[k])
    ensures var b := Join(AtomStrs(body), ", ");
      |b| > 0 && !IsSpace(b[0]) && b[|b| - 1] != '.'
  {
    var strs := AtomStrs(body);
    AtomStrEnds(body[0]);
    AtomStrEnds(body[|body| - 1]);
    JoinEnds(strs, ", ");
  }

  /** A fact's line parses back to the fact. */
  lemma FactLineRoundTrip(r: Rule)
    requires WfRule(r) && |r.body| == 0
    ensures ParseClauseLine(RuleLine(r)) == r
  {
    var line := RuleLine(r);
    AtomStrChars(r.head);
    assert ':' !in line;
    AbsentPattern(line, ":-");
    ParseAtomDotRoundTrip(r.head);
  }

  lemma StripHeadText(h: string)
    requires |h| > 0 && Trimmed(h)
    ensures Strip(h + " ") == h
  {
    assert LStrip(h + " ") == h + " ";
    assert (h + " ")[..|h|] == h;
    assert RStrip(h + " ") == RStrip(h);
    assert RStrip(h) == h;
  }

  lemma StripBodyText(b: string)
    requires |b| > 0 && !IsSpace(b[0]) && b[|b| - 1] != '.'
    ensures RStripDots(Strip(" " + b + ".")) == b
  {
    StripDotted(b);
    DropOneDot(b);
  }

  lemma StripDotted(b: string)
    requires |b| > 0 && !IsSpace(b[0])
    ensures Strip(" " + b + ".") == b + "."
  {
    assert " " + b + "." == " " + (b + ".");
    StripSpacePrefix(b + ".");
    DottedTrimmed(b);
  }

  lemma DottedTrimmed(b: string)
    requires |b| > 0 && !IsSpace(b[0])
    ensures Strip(b + ".") == b + "."
  {
    var bd := b + ".";
    assert bd[0] == b[0] && bd[|bd| - 1] == '.';
    assert Trimmed(bd);
  }

  lemma DropOneDot(b: string)
    requires |b| > 0 && b[|b| - 1] != '.'
    ensures RStripDots(b + ".") == b
  {
    assert (b + ".")[..|b|] == b;
  }

  /** A rule's line is its head text, ` :- `, its body text and a dot, and
      its first `:-` is the one after the head. */
  lemma RuleLineCut(r: Rule)
    requires WfRule(r) && |r.body| > 0
    ensures var h, b := AtomStr(r.head), Join(AtomStrs(r.body), ", ");
      var line := RuleLine(r);
      IndexOf(line, ":-") == Some(|h| + 1) && line[..|h| + 1] == h + " "
      && line[|h| + 3..] == " " + b + "."
  {
    AtomStrChars(r.head);
    CutAfterHead(AtomStr(r.head), Join(AtomStrs(r.body), ", "));
  }

  /** The first `:-` of `h :- b.` is the one after `h` when `h` has no colon. */
  lemma CutAfterHead(h: string, b: string)
    requires ':' !in h
    ensures var line := h + " :- " + b + ".";
      IndexOf(line, ":-") == Some(|h| + 1) && line[..|h| + 1] == h + " "
      && line[|h| + 3..] == " " + b + "."
  {
    var line := h + " :- " + b + ".";
    var i := |h| + 1;
    assert line == (h + " ") + (":-" + (" " + b + "."));
    assert line[..i] == h + " ";
    assert line[i..i + 2] == ":-";
    FirstOccurrence(line, ":-", i);
    assert line[i + 2..] == " " + b + ".";
  }

  /** A rule's line parses back to the rule. */
  lemma RuleLineRoundTrip(r: Rule)
    requires WfRule(r) && |r.body| > 0
    ensures ParseClauseLine(RuleLine(r)) == r
  {
    var h := AtomStr(r.head);
    var b := Join(AtomStrs(r.body), ", ");
    RuleLineCut(r);
    AtomStrEnds(r.head);
    StripHeadText(h);
    ParseAtomRoundTrip(r.head);
    BodyTextEnds(r.body);
    StripBodyText(b);
    SplitBodyRoundTrip(r.body);
    ParseAtomsRoundTrip(r.body);
  }

  /** Parsing the printed line of a well-formed clause gives the clause back. */
  lemma ClauseLineRoundTrip(r: Rule)
    requires WfRule(r)
    ensures ParseClauseLine(RuleLine(r)) == r
  {
    if |r.body| == 0 {
      FactLineRoundTrip(r);
    } else {
      RuleLineRoundTrip(r);
    }
  }

  // ---------------------------------------------------------------------------
  // Whole programs

  /** A clause line is trimmed, starts with its head's predicate and holds no
      line break. */
  lemma RuleLineShape(r: Rule)
    requires WfRule(r)
    ensures var line := RuleLine(r);
      |line| > 0 && Trimmed(line) && line[0] == r.head.pred[0]
      && forall j :: 0 <= j < |line| ==> !IsLineBreak(line[j])
  {
    var line := RuleLine(r);
    AtomStrEnds(r.head);
    AtomStrChars(r.head);
    if |r.body| > 0 {
      AtomStrsChars(r.body);
    }
    forall j | 0 <= j < |line|
      ensures !IsLineBreak(line[j])
    {
      assert line[j] in line;
    }
  }

  /** `"\n".join(ls).splitlines()` gives `ls` back when no line is empty or
      holds a line break. */
  lemma {:induction false} LinesJoin(ls: seq<string>)
    requires forall k :: 0 <= k < |ls| ==> |ls[k]| > 0 && forall j :: 0 <= j < |ls[k]| ==> !IsLineBreak(ls[k][j])
    ensures Lines(Join(ls, "\n")) == ls
    decreases |ls|
  {
    if |ls| == 1 {
      assert FirstBreak(ls[0]).None?;
    } else if |ls| > 1 {
      var l0 := ls[0];
      var j' := Join(ls[1..], "\n");
      var s := Join(ls, "\n");
      assert s == l0 + "\n" + j';
      assert s[|l0|] == '\n';
      assert forall k :: 0 <= k < |l0| ==> s[k] == l0[k];
      FirstBreakAt(s, |l0|);
      assert s[..|l0|] == l0 && s[|l0| + 1..] == j';
      LinesJoin(ls[1..]);
      assert [l0] + ls[1..] == ls;
    }
  }

  /** Every rendered line is a clause line, kept as it is. */
  lemma {:induction false} RenderedClauseLines(ls: seq<string>)
    requires forall k :: 0 <= k < |ls| ==> |ls[k]| > 0 && Trimmed(ls[k]) && ls[k][0] != '%'
    ensures ClauseLines(ls) == ls
    decreases |ls|
  {
    if |ls| > 0 {
      assert Strip(ls[0]) == ls[0];
      RenderedClauseLines(ls[1..]);
      ConsSplit(ls);
    }
  }

  /** The clause lines of a rendered program parse back to its clauses. */
  lemma ParseRuleLines(program: seq<Rule>)
    requires forall k :: 0 <= k < |program| ==> WfRule(program[k])
    ensures ParseLines(RuleLines(program)) == program
  {
    var ls := RuleLines(program);
    forall k | 0 <= k < |ls|
      ensures |ls[k]| > 0 && Trimmed(ls[k]) && ls[k][0] != '%'
      ensures ParseClauseLine(ls[k]) == program[k]
    {
      RuleLineShape(program[k]);
      TokenFacts(program[k].head.pred);
      ClauseLineRoundTrip(program[k]);
    }
    RenderedClauseLines(ls);
  }

  /** Parsing a rendered program of well-formed clauses gives the program back:
      the parser reads exactly the clauses the printer writes, in order. */
  lemma ParseProgramRoundTrip(program: seq<Rule>)
    requires forall k :: 0 <= k < |program| ==> WfRule(program[k])
    ensures ParseProgram(Render(program)) == program
  {
    var ls := RuleLines(program);
    forall k | 0 <= k < |ls|
      ensures |ls[k]| > 0 && forall j :: 0 <= j < |ls[k]| ==> !IsLineBreak(ls[k][j])
    {
      RuleLineShape(program[k]);
    }
    LinesJoin(ls);
    ParseRuleLines(program);
  }

  // ---------------------------------------------------------------------------
  // Names outside the well-formed ones

  /** An argument with an unmatched `(` survives a lone atom: `_parse_atom`
      reads from the first `(` to the last `)`. */
  lemma UnbalancedArgReturns()
    ensures ParseAtom(AtomStr(Atom("p", ["a(b"]))) == Atom("p", ["a(b"])
  {
    var t := "p(a(b)";
    assert AtomStr(Atom("p", ["a(b"])) == t by { assert Join(["a(b"], ", ") == "a(b"; }
    CleanText(t);
    UnbalancedClean();
  }

  /** Text that is trimmed and does not end in a dot is read as it stands. */
  lemma CleanText(t: string)
    requires |t| > 0 && !IsSpace(t[0]) && !IsSpace(t[|t| - 1]) && t[|t| - 1] != '.'
    ensures ParseAtom(t) == ParseCleanAtom(t)
  {
    TrimmedToken(t);
  }

  lemma UnbalancedClean()
    ensures ParseCleanAtom("p(a(b)") == Atom("p", ["a(b"])
  {
    var t := "p(a(b)";
    assert t[1..2] == "(" && t[..1] == "p";
    FirstOccurrence(t, "(", 1);
    TrimmedToken("p");
    assert t[2..] == "a(b)";
    UnbalancedArgText();
  }

  lemma UnbalancedArgText()
    ensures SplitArgs(BeforeLast("a(b)", ')')) == ["a(b"]
  {
    assert LastIndexOf("a(b)", ')') == Some(3);
    assert BeforeLast("a(b)", ')') == "a(b";
    UnbalancedArgAlone();
  }

  lemma UnbalancedArgAlone()
    ensures SplitArgs("a(b") == ["a(b"]
  {
    TrimmedToken("a(b");
    SplitArgsStep("a(b", "");
  }

  lemma TrimmedToken(t: string)
    requires |t| > 0 && !IsSpace(t[0]) && !IsSpace(t[|t| - 1])
    ensures Strip(t) == t
  {
  }

  /** In a rule body the same argument swallows the atoms after it: its `(`
      keeps the splitter at depth one past the comma, so the body is one
      piece, and `_parse_atom` reads that piece up to its last `)`, giving
      the argument `a(b` back and dropping `s`. */
  lemma UnbalancedArgSwallows()
    ensures ParseAtoms(SplitBody("p(a(b), s")) == [Atom("p", ["a(b"])]
  {
    UnbalancedArgInBody();
    UnbalancedBodyAtom();
  }

  lemma UnbalancedBodyAtom()
    ensures ParseAtom("p(a(b), s") == Atom("p", ["a(b"])
  {
    CleanText("p(a(b), s");
    UnbalancedBodyClean();
  }

  lemma UnbalancedBodyClean()
    ensures ParseCleanAtom("p(a(b), s") == Atom("p", ["a(b"])
  {
    var x := "p(a(b), s";
    assert x[1..2] == "(" && x[..1] == "p";
    FirstOccurrence(x, "(", 1);
    TrimmedToken("p");
    assert x[2..] == "a(b), s";
    UnbalancedBodyArgs();
  }

  lemma UnbalancedBodyArgs()
    ensures SplitArgs(BeforeLast("a(b), s", ')')) == ["a(b"]
  {
    var y := "a(b), s";
    assert y[3] == ')' && y[4] != ')' && y[5] != ')' && y[6] != ')';
    assert LastIndexOf(y, ')') == Some(3);
    assert BeforeLast(y, ')') == "a(b";
    UnbalancedArgAlone();
  }

  /** The body splitter keeps `p(a(b), s` as one piece: the unmatched `(`
      leaves the comma at depth one. */
  lemma UnbalancedArgInBody()
    ensures SplitBody("p(a(b), s") == ["p(a(b), s"]
  {
    var x := "p(a(b), s";
    UnbalancedOnePiece();
    TrimmedToken(x);
  }

  lemma UnbalancedOnePiece()
    ensures RawSegments("p(a(b), s", 0) == ["p(a(b), s"]
  {
    var x := "p(a(b), s";
    UnbalancedNoTopComma();
    assert Join([x], ",") == x;
    assert IsCutting([x], x, 0);
    RawSegmentsSpec([x], x, 0);
  }

  lemma UnbalancedNoTopComma()
    ensures NoTopComma("p(a(b), s", 0)
  {
    NoTopCommaCons('s', "", 1);
    NoTopCommaCons(' ', "s", 1);
    NoTopCommaCons(',', " s", 1);
    NoTopCommaCons(')', ", s", 2);
    NoTopCommaCons('b', "), s", 2);
    NoTopCommaCons('(', "b), s", 1);
    NoTopCommaCons('a', "(b), s", 1);
    NoTopCommaCons('(', "a(b), s", 0);
    NoTopCommaCons('p', "(a(b), s", 0);
  }

  /** One step of `NoTopComma`, read at the front. */
  lemma NoTopCommaCons(c: char, s: string, d: int)
    requires NoTopComma(s, DepthAfterChar(c, d)) && !(c == ',' && DepthAfterChar(c, d) == 0)
    ensures NoTopComma([c] + s, d)
  {
    assert ([c] + s)[1..] == s;
  }

  /** A zero-arity predicate with a comma survives a lone atom: text without
      `(` is kept whole. */
  lemma CommaPredReturns()
    ensures ParseAtom(AtomStr(Atom("p,q", []))) == Atom("p,q", [])
  {
    var t := "p,q";
    assert Trimmed(t) && Strip(t) == t;
    assert RStripDots(t) == t;
    AbsentPattern(t, "(");
  }

  /** A zero-arity predicate with trailing whitespace comes back from a fact
      line, where the dot protects it from the strip. */
  lemma SpacedPredFromFact()
    ensures ParseAtom("p .") == Atom("p ", [])
  {
    var t := "p .";
    assert Trimmed(t) && Strip(t) == t;
    assert t[..2] == "p ";
    assert RStripDots("p ") == "p ";
    assert RStripDots(t) == "p ";
    AbsentPattern("p ", "(");
  }

}

=== FILE: resolver.dfy ===
/** `prove` and its inner `dfs`: depth-first, depth-bounded SLD resolution
    over the clauses in program order, recording a trace of the steps of the
    proof it finds. */
module Resolver {

  import opened Optional
  import opened Text
  import opened Terms
  import opened Substitution
  import opened Unify

  /** What `dfs` returns: the answer substitution, if any, and the trace. */
  datatype Outcome = Outcome(subst: Option<Subst>, trace: seq<string>)

  /** What `prove` returns. */
  datatype Answer = Answer(proved: bool, trace: seq<string>)

  /** The default of `prove`'s `max_depth`. */
  const DefaultMaxDepth := 50

  // ---------------------------------------------------------------------------
  // Trace lines

  function GoalLine(goal: Atom): string {
    "Goal: " + AtomStr(goal)
  }

  function FailLine(goal: Atom): string {
    "  Fail: " + AtomStr(goal)
  }

  /** The line for a clause whose head unified with the goal, with `s2`
      applied to the head and, for a rule, to the body. */
  function MatchLine(r: Rule, s2: Subst): string
    requires ChainsEnd(s2)
  {
    if |r.body| == 0 then
      "  Matched FACT: " + AtomStr(ApplyAtom(r.head, s2))
    else
      "  Matched RULE: " + AtomStr(ApplyAtom(r.head, s2)) + " :- " + Join(AtomStrs(ApplyAtoms(r.body, s2)), ", ")
  }

  /** Python's `repr` of each string, for strings without quotes or escapes. */
  function Quoted(ps: seq<string>): (r: seq<string>)
    ensures |r| == |ps|
    ensures forall k :: 0 <= k < |ps| ==> r[k] == "'" + ps[k] + "'"
  {
    if |ps| == 0 then [] else ["'" + ps[0] + "'"] + Quoted(ps[1..])
  }

  /** The line of a branch cut off by the depth bound: the Python list of the
      outstanding goals with `s` applied. */
  function DepthLine(goals: seq<Atom>, s: Subst): string
    requires ChainsEnd(s)
  {
    "Depth limit reached at goals: [" + Join(Quoted(AtomStrs(ApplyAtoms(goals, s))), ", ") + "]"
  }

  /** The two lines a goal that no clause proves adds. */
  function FailLines(goal: Atom): seq<string> {
    [GoalLine(goal), FailLine(goal)]
  }

  // ---------------------------------------------------------------------------
  // The search

  /** What is left of the depth bound; it shrinks at every expansion. */
  function Budget(maxDepth: int, depth: int): nat {
    if depth > maxDepth then 0 else maxDepth + 1 - depth
  }

  /** `dfs(goals, s, depth, trace)`.  The depth bound is checked before the
      goal list.  A failure discards the traces of the branches it tried and
      adds only its own lines to `trace`; a success extends `trace`, binding
      on top of `s` and never undoing a binding. */
  function Dfs(program: seq<Rule>, maxDepth: int, goals: seq<Atom>, s: Subst, depth: int, trace: seq<string>): (o: Outcome)
    requires Acyclic(s)
    ensures depth > maxDepth ==> o == Outcome(None, trace + [DepthLine(goals, s)])
    ensures depth <= maxDepth && |goals| == 0 ==> o == Outcome(Some(s), trace)
    ensures o.subst.None? && depth <= maxDepth ==>
      |goals| > 0 && o.trace == trace + FailLines(ApplyAtom(goals[0], s))
    ensures o.subst.Some? ==>
      depth <= maxDepth && Acyclic(o.subst.value) && Extends(s, o.subst.value) && trace <= o.trace
    decreases Budget(maxDepth, depth), |program| + 1
  {
    if depth > maxDepth then
      Outcome(None, trace + [DepthLine(goals, s)])
    else if |goals| == 0 then
      Outcome(Some(s), trace)
    else
      TryClauses(program, maxDepth, goals, s, depth, trace, 0)
  }

  /** The `for r in program` loop of `dfs` from clause `i` on, for the goal
      `goals[0]` with `s` applied.  A clause whose head does not unify with
      the goal under `s` is skipped; one that does is expanded, from `s`
      again each time, and its first success is the result. */
  function TryClauses(program: seq<Rule>, maxDepth: int, goals: seq<Atom>, s: Subst, depth: int,
                      trace: seq<string>, i: nat): (o: Outcome)
    requires Acyclic(s) && |goals| > 0 && depth <= maxDepth && i <= |program|
    ensures o.subst.None? ==> o.trace == trace + FailLines(ApplyAtom(goals[0], s))
    ensures o.subst.Some? ==> Acyclic(o.subst.value) && Extends(s, o.subst.value) && trace <= o.trace
    decreases Budget(maxDepth, depth), |program| - i
  {
    var goal := ApplyAtom(goals[0], s);
    if i == |program| then
      Outcome(None, trace + FailLines(goal))
    else
      var r := program[i];
      match UnifyAtoms(r.head, goal, s)
      case None => TryClauses(program, maxDepth, goals, s, depth, trace, i + 1)
      case Some(s2) =>
        var o := Dfs(program, maxDepth, r.body + goals[1..], s2, depth + 1, trace + [GoalLine(goal), MatchLine(r, s2)]);
        if o.subst.Some? then o else TryClauses(program, maxDepth, goals, s, depth, trace, i + 1)
  }

  /** `prove(program, query, max_depth)`: the search from the query alone and
      the empty substitution.  Failure with a non-negative bound leaves just
      the query's own goal and fail lines; a negative bound stops before
      anything is tried. */
  function Prove(program: seq<Rule>, query: Atom, maxDepth: int): (r: Answer)
    ensures !r.proved && maxDepth >= 0 ==> r.trace == ["Goal: " + AtomStr(query), "  Fail: " + AtomStr(query)]
    ensures maxDepth < 0 ==> r == Answer(false, ["Depth limit reached at goals: [" + ("'" + AtomStr(query) + "'") + "]"])
  {
    EmptyResolvesToSelf(query);
    assert ApplyAtoms([query], map[]) == [query];
    assert Quoted(AtomStrs([query])) == ["'" + AtomStr(query) + "'"];
    var o := Dfs(program, maxDepth, [query], map[], 0, []);
    Answer(o.subst.Some?, o.trace)
  }

}

=== FILE: scenarios.dfy ===
/** Worked runs of the search on small programs. */
module Scenarios {
  import opened Optional
  import opened Terms
  import opened Substitution
  import opened Unify
  import opened Resolver

  /** `two :- p(a), p(b).` and `p(X).`: `two` follows from the clauses, but the
      search uses the one fact `p(X).` twice with the same variable `X`. */
  function SharedFactProgram(): seq<Rule> {
    [Rule(Atom("two", []), [Atom("p", ["a"]), Atom("p", ["b"])]),
     Rule(Atom("p", ["X"]), [])]
  }

  /** The substitution `{X: a}` after the first use of `p(X).` */
  lemma FirstUse()
    ensures Acyclic(map["X" := "a"])
    ensures Resolve("X", map["X" := "a"]) == "a"
    ensures UnifyAtoms(Atom("p", ["X"]), Atom("p", ["a"]), map[]) == Some(map["X" := "a"])
  {
    var e: Subst := map[];
    EmptyResolvesToSelf(Atom("", []));
    BindResolve(e, "X", "a");
    assert Resolve("X", e) == "X";
    assert Resolve("a", e) == "a";
    assert UnifyTerms("X", "a", e) == Some(map["X" := "a"]);
  }

  /** The second use: under `{X: a}` the head `p(X)` stands for `p(a)`, which
      does not unify with `p(b)`. */
  lemma SecondUse(t: seq<string>)
    ensures Acyclic(map["X" := "a"])
    ensures Dfs(SharedFactProgram(), 50, [Atom("p", ["b"])], map["X" := "a"], 2, t).subst.None?
  {
    FirstUse();
    var s1: Subst := map["X" := "a"];
    var goals := [Atom("p", ["b"])];
    assert ApplyAtom(goals[0], s1) == Atom("p", ["b"]) by {
      assert ResolveArgs(["b"], s1) == ["b"];
    }
    assert Resolve("b", s1) == "b";
    assert UnifyTerms("X", "b", s1).None?;
    assert UnifyAtoms(Atom("p", ["X"]), Atom("p", ["b"]), s1).None?;
  }

  /** Goals `p(a), p(b)`: the fact binds `X` to `a` and `p(b)` then fails. */
  lemma BodyFails(t: seq<string>)
    ensures Acyclic(map[])
    ensures Dfs(SharedFactProgram(), 50, [Atom("p", ["a"]), Atom("p", ["b"])], map[], 1, t).subst.None?
  {
    FirstUse();
    var e: Subst := map[];
    var goals := [Atom("p", ["a"]), Atom("p", ["b"])];
    EmptyResolvesToSelf(goals[0]);
    var s1: Subst := map["X" := "a"];
    assert [] + goals[1..] == [Atom("p", ["b"])];
    SecondUse(t + [GoalLine(goals[0]), MatchLine(SharedFactProgram()[1], s1)]);
  }

  /** Because clause variables are not renamed apart, `two` is not proved,
      with the default depth bound. */
  lemma SharedVariable()
    ensures !Prove(SharedFactProgram(), Atom("two", []), DefaultMaxDepth).proved
  {
    var e: Subst := map[];
    var goals := [Atom("two", [])];
    EmptyResolvesToSelf(goals[0]);
    UnifyAtomsSelf(goals[0], e);
    assert SharedFactProgram()[0].body + goals[1..] == [Atom("p", ["a"]), Atom("p", ["b"])];
    BodyFails([] + [GoalLine(goals[0]), MatchLine(SharedFactProgram()[0], e)]);
  }
}

=== FILE: subst.dfy ===
/** Substitutions: finite maps from variables to terms whose bindings are
    followed as chains (`X -> Y -> a`). */
module Substitution {

  import opened Terms

  type Subst = map<Term, Term>

  /** `t` is a variable bound in `s` to a different term: the condition under
      which chain-following takes another step. */
  predicate Bound(t: Term, s: Subst) {
    IsVar(t) && t in s && s[t] != t
  }

  /** At most `n` steps of chain-following from `t`. */
  function Walk(t: Term, s: Subst, n: nat): Term
    decreases n
  {
    if n == 0 || !Bound(t, s) then t else Walk(s[t], s, n - 1)
  }

  /** Every chain of `s` reaches a stop within `|s|` steps, so that
      chain-following terminates. */
  ghost predicate ChainsEnd(s: Subst) {
    forall t :: !Bound(Walk(t, s, |s|), s)
  }

  /** No variable is bound to itself and no chain runs in a circle: the
      invariant every substitution built by unification keeps. */
  ghost predicate Acyclic(s: Subst) {
    && (forall x :: x in s ==> s[x] != x)
    && ChainsEnd(s)
  }

  /** The term `t` stands for under `s`: follow its chain to the end. */
  function Resolve(t: Term, s: Subst): (r: Term)
    requires ChainsEnd(s)
    ensures !Bound(r, s)
    ensures !Bound(t, s) ==> r == t
    ensures r == t || r in s.Values
  {
    WalkInValues(t, s, |s|);
    Walk(t, s, |s|)
  }

  /** Resolving a bound variable is resolving what it is bound to: one turn
      of the loop in `apply_subst_term` (`logic_engine.py`). */
  lemma ResolveStep(t: Term, s: Subst)
    requires ChainsEnd(s) && Bound(t, s)
    ensures Resolve(t, s) == Resolve(s[t], s)
  {
    assert !Bound(Walk(t, s, |s|), s);
    WalkStable(s[t], s, |s| - 1, |s|);
  }

  /** Resolution is idempotent: the term a chain ends at resolves to itself. */
  lemma ResolveIdempotent(t: Term, s: Subst)
    requires ChainsEnd(s)
    ensures Resolve(Resolve(t, s), s) == Resolve(t, s)
  {
  }

  lemma {:induction false} WalkInValues(t: Term, s: Subst, n: nat)
    ensures Walk(t, s, n) == t || Walk(t, s, n) in s.Values
    decreases n
  {
    if n > 0 && Bound(t, s) {
      WalkInValues(s[t], s, n - 1);
    }
  }

  /** Once a walk has reached a stop, more steps change nothing. */
  lemma {:induction false} WalkStable(t: Term, s: Subst, n: nat, m: nat)
    requires !Bound(Walk(t, s, n), s) && n <= m
    ensures Walk(t, s, m) == Walk(t, s, n)
    decreases n
  {
    if n > 0 && Bound(t, s) {
      WalkStable(s[t], s, n - 1, m - 1);
    }
  }

  /** One more step at the end of a walk. */
  lemma {:induction false} WalkSnoc(t: Term, s: Subst, n: nat)
    ensures Walk(t, s, n + 1) == (if Bound(Walk(t, s, n), s) then s[Walk(t, s, n)] else Walk(t, s, n))
    decreases n
  {
    if n > 0 && Bound(t, s) {
      WalkSnoc(s[t], s, n - 1);
    }
  }

  /** `apply_subst_term` in `logic_engine.py`, written as a loop that follows
      the chain while the current term is a variable bound to something else. */
  method ApplySubstTerm(t: Term, s: Subst) returns (r: Term)
    requires ChainsEnd(s)
    ensures r == Resolve(t, s)
    ensures !Bound(r, s)
  {
    r := t;
    ghost var k: nat := 0;
    while Bound(r, s)
      invariant k <= |s| && r == Walk(t, s, k)
      decreases |s| - k
    {
      assert !Bound(Walk(t, s, |s|), s);
      WalkSnoc(t, s, k);
      r := s[r];
      k := k + 1;
    }
    WalkStable(t, s, k, |s|);
  }

  /** The terms `ts` stand for under `s`, position by position. */
  function ResolveArgs(ts: seq<Term>, s: Subst): (r: seq<Term>)
    requires ChainsEnd(s)
    ensures |r| == |ts|
    ensures forall k :: 0 <= k < |ts| ==> r[k] == Resolve(ts[k], s)
  {
    if |ts| == 0 then [] else [Resolve(ts[0], s)] + ResolveArgs(ts[1..], s)
  }

  /** `apply_subst_atom`: the atom with every argument resolved. */
  function ApplyAtom(a: Atom, s: Subst): (r: Atom)
    requires ChainsEnd(s)
    ensures r.pred == a.pred && |r.args| == |a.args|
    ensures forall k :: 0 <= k < |a.args| ==> r.args[k] == Resolve(a.args[k], s) && !Bound(r.args[k], s)
  {
    Atom(a.pred, ResolveArgs(a.args, s))
  }

  /** `ApplyAtom` over a sequence of atoms (a rule body). */
  function ApplyAtoms(atoms: seq<Atom>, s: Subst): (r: seq<Atom>)
    requires ChainsEnd(s)
    ensures |r| == |atoms|
    ensures forall k :: 0 <= k < |atoms| ==> r[k] == ApplyAtom(atoms[k], s)
  {
    if |atoms| == 0 then [] else [ApplyAtom(atoms[0], s)] + ApplyAtoms(atoms[1..], s)
  }

  /** The empty substitution resolves every term to itself. */
  lemma EmptyResolvesToSelf(a: Atom)
    ensures ChainsEnd(map[]) && Acyclic(map[])
    ensures ApplyAtom(a, map[]) == a
  {
    var e: Subst := map[];
    assert ResolveArgs(a.args, e) == a.args;
  }

  /** `s2` keeps every binding of `s` unchanged. */
  ghost predicate Extends(s: Subst, s2: Subst) {
    s.Keys <= s2.Keys && forall x :: x in s ==> s2[x] == s[x]
  }

  /** Every term resolves under `s2` as its `s`-resolution does: `s2` only
      adds to what `s` already decided. */
  ghost predicate ResolvesThrough(s: Subst, s2: Subst) {
    && ChainsEnd(s) && ChainsEnd(s2)
    && forall x :: Resolve(x, s2) == Resolve(Resolve(x, s), s2)
  }

  /** `s[v := w]` when `v` is not bound.  */
  lemma {:induction false} WalkBindAway(s: Subst, v: Term, w: Term, t: Term, n: nat)
    requires IsVar(v) && v !in s && v != w
    requires Walk(t, s, n) != v
    ensures Walk(t, s[v := w], n) == Walk(t, s, n)
    decreases n
  {
    if n > 0 && t != v && Bound(t, s) {
      WalkBindAway(s, v, w, s[t], n - 1);
    }
  }

  lemma {:induction false} WalkBindHit(s: Subst, v: Term, w: Term, t: Term, n: nat)
    requires IsVar(v) && v !in s && v != w && !Bound(w, s)
    requires Walk(t, s, n) == v
    ensures Walk(t, s[v := w], n + 1) == w
    decreases n
  {
    var s2 := s[v := w];
    assert !Bound(w, s2);
    if t == v {
      assert Bound(v, s2);
    } else {
      assert Bound(t, s) && n > 0;
      WalkBindHit(s, v, w, s[t], n - 1);
    }
  }

  /** The effect of one new binding on one chain. */
  lemma BindWalk(s: Subst, v: Term, w: Term, t: Term)
    requires Acyclic(s) && IsVar(v) && v !in s && !Bound(w, s) && v != w
    ensures !Bound(Walk(t, s[v := w], |s| + 1), s[v := w])
    ensures Walk(t, s[v := w], |s| + 1) == (if Walk(t, s, |s|) == v then w else Walk(t, s, |s|))
  {
    var s2 := s[v := w];
    var r := Walk(t, s, |s|);
    assert !Bound(r, s);
    if r == v {
      WalkBindHit(s, v, w, t, |s|);
      assert !Bound(w, s2);
    } else {
      WalkBindAway(s, v, w, t, |s|);
      assert !Bound(r, s2);
      WalkStable(t, s2, |s|, |s| + 1);
    }
  }

  lemma BindSize(s: Subst, v: Term, w: Term)
    requires v !in s
    ensures |s[v := w]| == |s| + 1
  {
    assert s[v := w].Keys == s.Keys + {v};
  }

  /** Binding a resolved, unbound variable `v` to a resolved term `w` keeps the
      substitution acyclic, and every term that resolved to `v` now resolves
      to `w`; nothing else changes. */
  lemma BindResolve(s: Subst, v: Term, w: Term)
    requires Acyclic(s) && IsVar(v) && !Bound(v, s) && !Bound(w, s) && v != w
    ensures v !in s && Extends(s, s[v := w])
    ensures Acyclic(s[v := w])
    ensures forall t :: Resolve(t, s[v := w]) == (if Resolve(t, s) == v then w else Resolve(t, s))
    ensures ResolvesThrough(s, s[v := w])
  {
    var s2 := s[v := w];
    assert v !in s;
    BindSize(s, v, w);
    forall t
      ensures !Bound(Walk(t, s2, |s2|), s2)
      ensures Walk(t, s2, |s2|) == (if Walk(t, s, |s|) == v then w else Walk(t, s, |s|))
    {
      BindWalk(s, v, w, t);
    }
    assert ChainsEnd(s2);
    assert forall x :: x in s2 ==> s2[x] != x;
    forall x
      ensures Resolve(x, s2) == Resolve(Resolve(x, s), s2)
    {
      ResolveIdempotent(x, s);
    }
  }

  /** `ResolvesThrough` is a preorder: reflexive ... */
  lemma ResolvesThroughRefl(s: Subst)
    requires ChainsEnd(s)
    ensures ResolvesThrough(s, s)
  {
    forall x
      ensures Resolve(x, s) == Resolve(Resolve(x, s), s)
    {
      ResolveIdempotent(x, s);
    }
  }

  /** ... and transitive. */
  lemma ResolvesThroughTrans(s1: Subst, s2: Subst, s3: Subst)
    requires ResolvesThrough(s1, s2) && ResolvesThrough(s2, s3)
    ensures ResolvesThrough(s1, s3)
  {
    forall x
      ensures Resolve(x, s3) == Resolve(Resolve(x, s1), s3)
    {
      var y := Resolve(x, s1);
      assert Resolve(x, s3) == Resolve(Resolve(x, s2), s3);
      assert Resolve(x, s2) == Resolve(y, s2);
      assert Resolve(y, s3) == Resolve(Resolve(y, s2), s3);
    }
  }

  /** Terms that resolve alike under `s` still resolve alike under any `s2`
      that resolves through `s`. */
  lemma ResolvesThroughAgrees(s: Subst, s2: Subst, x: Term, y: Term)
    requires ResolvesThrough(s, s2) && Resolve(x, s) == Resolve(y, s)
    ensures Resolve(x, s2) == Resolve(y, s2)
  {
    assert Resolve(x, s2) == Resolve(Resolve(x, s), s2);
    assert Resolve(y, s2) == Resolve(Resolve(y, s), s2);
  }

}

=== FILE: terms.dfy ===
/** Terms, atoms and clauses of the flat Horn-clause language. */
module Terms {

  import opened Text

  /** A term is a bare token: a variable or a constant, never a compound. */
  type Term = string

  /** A predicate applied to a sequence of terms; the arity is `|args|`. */
  datatype Atom = Atom(pred: string, args: seq<Term>)

  /** `head :- body`; a clause with an empty body is a fact. */
  datatype Rule = Rule(head: Atom, body: seq<Atom>)

  /** The characters a variable may start with. */
  const VarInitials := "ABCDEFGHIJKLMNOPQRSTUVWXYZ_"

  /** A variable starts with an (ASCII) upper-case letter or an underscore;
      every other token, the empty one included, is a constant. */
  predicate IsVar(t: Term) {
    |t| > 0 && (IsAsciiUpper(t[0]) || t[0] == '_')
  }

  /** `is_var` looks at the first character only: a term is a variable
      exactly when it starts with one of the 27 variable initials. */
  lemma IsVarInitial(t: Term)
    ensures IsVar(t) <==> |t| > 0 && t[0] in VarInitials
  {
    if |t| > 0 && IsVar(t) {
      var c := t[0];
      assert c == VarInitials[if c == '_' then 26 else (c as int - 'A' as int)];
    }
  }

  /** The printed form of an atom: `p` for arity zero, otherwise `p(a, b)`. */
  function AtomStr(a: Atom): string {
    if |a.args| == 0 then a.pred else a.pred + "(" + Join(a.args, ", ") + ")"
  }

  /** The printed form starts with the predicate; an atom with arguments
      adds a parenthesised list after it, and one without adds nothing. */
  lemma AtomStrShape(a: Atom)
    ensures var r := AtomStr(a);
      && |r| >= |a.pred| && r[..|a.pred|] == a.pred
      && (|a.args| == 0 <==> |r| == |a.pred|)
      && (|a.args| > 0 ==> r[|a.pred|] == '(' && r[|r| - 1] == ')')
  {
  }

  /** The printed forms of a sequence of atoms. */
  function AtomStrs(atoms: seq<Atom>): (r: seq<string>)
    ensures |r| == |atoms|
    ensures forall k :: 0 <= k < |atoms| ==> r[k] == AtomStr(atoms[k])
  {
    if |atoms| == 0 then [] else [AtomStr(atoms[0])] + AtomStrs(atoms[1..])
  }

}

=== FILE: text.dfy ===
/** The few Python `str` operations the engine uses, written out over `seq<char>`:
    `strip`, `rstrip(".")`, `split(",")`, `", ".join(...)`, `in`, `find`,
    `rsplit(")", 1)` and `splitlines()`. */
module Text {

  import opened Optional

  /** Python's `str.isspace()` for one character. */
  predicate IsSpace(c: char) {
    var n := c as int;
    || (9 <= n <= 13)
    || (28 <= n <= 32)
    || n == 0x85 || n == 0xA0 || n == 0x1680
    || (0x2000 <= n <= 0x200A)
    || n == 0x2028 || n == 0x2029 || n == 0x202F || n == 0x205F || n == 0x3000
  }

  /** The characters at which Python's `str.splitlines()` ends a line. */
  predicate IsLineBreak(c: char) {
    var n := c as int;
    || (10 <= n <= 13)
    || (28 <= n <= 30)
    || n == 0x85 || n == 0x2028 || n == 0x2029
  }

  predicate IsAsciiUpper(c: char) {
    'A' <= c <= 'Z'
  }

  /** A non-empty sequence is its head followed by its tail. */
  lemma ConsSplit<T>(q: seq<T>)
    requires |q| > 0
    ensures [q[0]] + q[1..] == q
  {
  }

  /** The tail of a concatenation whose first part is non-empty. */
  lemma TailOfAppend<T>(a: seq<T>, b: seq<T>)
    requires |a| > 0
    ensures (a + b)[0] == a[0] && (a + b)[1..] == a[1..] + b
  {
  }

  /** Python's `s.lstrip()`: drops the leading whitespace. */
  function LStrip(s: string): (r: string)
    ensures |r| <= |s| && r == s[|s| - |r|..]
    ensures |r| > 0 ==> !IsSpace(r[0])
  {
    if |s| > 0 && IsSpace(s[0]) then LStrip(s[1..]) else s
  }

  /** Python's `s.rstrip()`: drops the trailing whitespace. */
  function RStrip(s: string): (r: string)
    ensures |r| <= |s| && r == s[..|r|]
    ensures |r| > 0 ==> !IsSpace(r[|r| - 1])
  {
    if |s| > 0 && IsSpace(s[|s| - 1]) then RStrip(s[..|s| - 1]) else s
  }

  /** Text with no whitespace at either end. */
  predicate Trimmed(t: string) {
    |t| > 0 ==> !IsSpace(t[0]) && !IsSpace(t[|t| - 1])
  }

  /** Python's `s.strip()`: the text between the leading and the trailing
      whitespace. */
  function Strip(s: string): (r: string)
    ensures Trimmed(r) && |r| <= |s|
    ensures Trimmed(s) ==> r == s
  {
    RStrip(LStrip(s))
  }

  lemma {:induction false} LStripOnlySpace(s: string)
    ensures forall k :: 0 <= k < |s| - |LStrip(s)| ==> IsSpace(s[k])
    decreases |s|
  {
    if |s| > 0 && IsSpace(s[0]) {
      LStripOnlySpace(s[1..]);
    }
  }

  lemma {:induction false} RStripOnlySpace(s: string)
    ensures forall k :: |RStrip(s)| <= k < |s| ==> IsSpace(s[k])
    decreases |s|
  {
    if |s| > 0 && IsSpace(s[|s| - 1]) {
      RStripOnlySpace(s[..|s| - 1]);
    }
  }

  /** `strip` removes whitespace and nothing else: `Strip(s)` is the slice of
      `s` at `i`, with only whitespace before and after it. */
  lemma StripOnlySpace(s: string) returns (i: nat)
    ensures i + |Strip(s)| <= |s| && Strip(s) == s[i..i + |Strip(s)|]
    ensures forall k :: 0 <= k < i ==> IsSpace(s[k])
    ensures forall k :: i + |Strip(s)| <= k < |s| ==> IsSpace(s[k])
  {
    var l := LStrip(s);
    i := |s| - |l|;
    LStripOnlySpace(s);
    RStripOnlySpace(l);
    SuffixSpace(s, l, i, |RStrip(l)|);
  }

  /** The whitespace at the end of the suffix `s[i..]` is at the end of `s`,
      and the prefix of that suffix is a slice of `s`. */
  lemma SuffixSpace(s: string, l: string, i: nat, m: nat)
    requires i <= |s| && l == s[i..] && m <= |l|
    requires forall k :: m <= k < |l| ==> IsSpace(l[k])
    ensures l[..m] == s[i..i + m]
    ensures forall k :: i + m <= k < |s| ==> IsSpace(s[k])
  {
    forall k | i + m <= k < |s|
      ensures IsSpace(s[k])
    {
      assert s[k] == l[k - i];
    }
  }

  /** Stripping only removes characters. */
  lemma StripKeepsOut(s: string, c: char)
    requires c !in s
    ensures c !in Strip(s)
  {
    var l := LStrip(s);
    var r := RStrip(l);
    forall k | 0 <= k < |r|
      ensures r[k] != c
    {
      assert r[k] == l[k] == s[|s| - |l| + k];
    }
  }

  /** Python's `s.rstrip(".")`: drops every trailing dot. */
  function RStripDots(s: string): (r: string)
    ensures |r| <= |s| && r == s[..|r|]
    ensures |r| > 0 ==> r[|r| - 1] != '.'
  {
    if |s| > 0 && s[|s| - 1] == '.' then RStripDots(s[..|s| - 1]) else s
  }

  /** `rstrip(".")` removes dots and nothing else. */
  lemma {:induction false} RStripDotsOnlyDots(s: string)
    ensures forall k :: |RStripDots(s)| <= k < |s| ==> s[k] == '.'
    decreases |s|
  {
    if |s| > 0 && s[|s| - 1] == '.' {
      RStripDotsOnlyDots(s[..|s| - 1]);
    }
  }

  /** `pat` occurs in `s` starting at index `i`. */
  predicate OccursAt(s: string, pat: string, i: int) {
    0 <= i && i + |pat| <= |s| && s[i..i + |pat|] == pat
  }

  /** Python's `s.find(pat)`, with `None` for -1: the first index where `pat` occurs. */
  function IndexOf(s: string, pat: string): (r: Option<nat>)
    requires |pat| > 0
    ensures r.Some? ==> OccursAt(s, pat, r.value)
    ensures r.Some? ==> forall j :: 0 <= j < r.value ==> !OccursAt(s, pat, j)
    ensures r.None? ==> forall j :: !OccursAt(s, pat, j)
    decreases |s|
  {
    if |s| < |pat| then None
    else if s[..|pat|] == pat then Some(0)
    else
      var r := IndexOf(s[1..], pat);
      OccursShift(s, pat);
      match r
      case None => None
      case Some(i) => Some(i + 1)
  }

  /** Occurrences past the first character are occurrences in the tail. */
  lemma OccursShift(s: string, pat: string)
    requires |s| > 0
    ensures forall j :: j > 0 ==> (OccursAt(s, pat, j) <==> OccursAt(s[1..], pat, j - 1))
  {
    forall j | j > 0
      ensures OccursAt(s, pat, j) <==> OccursAt(s[1..], pat, j - 1)
    {
      if j + |pat| <= |s| {
        var a, b := s[j..j + |pat|], s[1..][j - 1..j - 1 + |pat|];
        assert |a| == |b| && forall k :: 0 <= k < |a| ==> a[k] == s[j + k] == b[k];
      }
    }
  }

  /** Python's `pat in s`. */
  predicate Contains(s: string, pat: string)
    requires |pat| > 0
  {
    IndexOf(s, pat).Some?
  }

  /** Python's `s.rfind(c)`, with `None` for -1: the last index holding `c`. */
  function LastIndexOf(s: string, c: char): (r: Option<nat>)
    ensures r.Some? ==> r.value < |s| && s[r.value] == c
    ensures r.Some? ==> forall j :: r.value < j < |s| ==> s[j] != c
    ensures r.None? ==> forall j :: 0 <= j < |s| ==> s[j] != c
  {
    if |s| == 0 then None
    else if s[|s| - 1] == c then Some(|s| - 1)
    else LastIndexOf(s[..|s| - 1], c)
  }

  /** Python's `s.rsplit(c, 1)[0]`: the text before the last `c`, or all of `s`. */
  function BeforeLast(s: string, c: char): string {
    match LastIndexOf(s, c)
    case None => s
    case Some(j) => s[..j]
  }

  /** Python's `sep.join(ps)`. */
  function Join(ps: seq<string>, sep: string): string
    decreases |ps|
  {
    if |ps| == 0 then ""
    else if |ps| == 1 then ps[0]
    else ps[0] + sep + Join(ps[1..], sep)
  }

  /** Python's `s.split(c)` for a one-character separator `c`: the pieces
      between consecutive occurrences of `c`; there is always at least one. */
  function Split(s: string, c: char): (r: seq<string>)
    ensures |r| >= 1
    ensures Join(r, [c]) == s
    ensures forall k :: 0 <= k < |r| ==> c !in r[k]
    decreases |s|
  {
    if |s| == 0 then [""]
    else
      var rest := Split(s[1..], c);
      if s[0] == c then
        assert [""] + rest == [""] + rest[..1] + rest[1..];
        [""] + rest
      else
        var r := [[s[0]] + rest[0]] + rest[1..];
        assert Join(r, [c]) == s by {
          if |rest| == 1 {
          } else {
            assert r[1..] == rest[1..];
          }
        }
        r
  }

  /** `Split` on text without the separator, and on text with a first
      separator after `x`. */
  lemma {:induction false} SplitNoSep(x: string, c: char)
    requires c !in x
    ensures Split(x, c) == [x]
    decreases |x|
  {
    if |x| > 0 {
      SplitNoSep(x[1..], c);
    }
  }

  lemma {:induction false} SplitAtSep(x: string, y: string, c: char)
    requires c !in x
    ensures Split(x + [c] + y, c) == [x] + Split(y, c)
    decreases |x|
  {
    if |x| == 0 {
      assert (x + [c] + y)[1..] == y;
    } else {
      assert (x + [c] + y)[1..] == x[1..] + [c] + y;
      SplitAtSep(x[1..], y, c);
      assert x == [x[0]] + x[1..];
    }
  }

  /** The index of the first line-break character of `s`, if any. */
  function FirstBreak(s: string): (r: Option<nat>)
    ensures r.Some? ==> r.value < |s| && IsLineBreak(s[r.value])
    ensures r.Some? ==> forall j :: 0 <= j < r.value ==> !IsLineBreak(s[j])
    ensures r.None? ==> forall j :: 0 <= j < |s| ==> !IsLineBreak(s[j])
    decreases |s|
  {
    if |s| == 0 then None
    else if IsLineBreak(s[0]) then Some(0)
    else match FirstBreak(s[1..])
      case None => None
      case Some(i) => Some(i + 1)
  }

  lemma FirstBreakAt(s: string, i: nat)
    requires i < |s| && IsLineBreak(s[i])
    requires forall k :: 0 <= k < i ==> !IsLineBreak(s[k])
    ensures FirstBreak(s) == Some(i)
  {
  }

  /** Python's `s.splitlines()`: a break ends a line, `"\r\n"` counts as one
      break, and a break at the very end opens no further (empty) line. */
  function Lines(s: string): (r: seq<string>)
    ensures forall k :: 0 <= k < |r| ==> forall j :: 0 <= j < |r[k]| ==> !IsLineBreak(r[k][j])
    decreases |s|
  {
    if |s| == 0 then []
    else
      match FirstBreak(s)
      case None => [s]
      case Some(i) =>
        var next := if s[i] == '\r' && i + 1 < |s| && s[i + 1] == '\n' then i + 2 else i + 1;
        [s[..i]] + Lines(s[next..])
  }


  /** `splitlines` read one line at a time: text without a break is one line
      (none when empty), and a break ends the line before it, `"\r\n"`
      counting as a single break.  These cases determine `Lines` on every
      string. */
  lemma LinesStep(l: string, b: char, rest: string)
    requires forall j :: 0 <= j < |l| ==> !IsLineBreak(l[j])
    ensures Lines(l) == (if |l| == 0 then [] else [l])
    ensures IsLineBreak(b) && !(b == '\r' && |rest| > 0 && rest[0] == '\n') ==>
      Lines(l + [b] + rest) == [l] + Lines(rest)
    ensures Lines(l + "\r\n" + rest) == [l] + Lines(rest)
  {
    LinesNoBreak(l);
    if IsLineBreak(b) && !(b == '\r' && |rest| > 0 && rest[0] == '\n') {
      LinesAtBreak(l, b, rest);
    }
    LinesAtCrLf(l, rest);
  }

  lemma LinesNoBreak(l: string)
    requires forall j :: 0 <= j < |l| ==> !IsLineBreak(l[j])
    ensures Lines(l) == (if |l| == 0 then [] else [l])
  {
    if |l| > 0 {
      assert FirstBreak(l).None?;
    }
  }

  lemma LinesAtBreak(l: string, b: char, rest: string)
    requires forall j :: 0 <= j < |l| ==> !IsLineBreak(l[j])
    requires IsLineBreak(b) && !(b == '\r' && |rest| > 0 && rest[0] == '\n')
    ensures Lines(l + [b] + rest) == [l] + Lines(rest)
  {
    var s := l + [b] + rest;
    FirstBreakAt(s, |l|);
    assert s[..|l|] == l;
    assert s[|l| + 1..] == rest;
  }

  lemma LinesAtCrLf(l: string, rest: string)
    requires forall j :: 0 <= j < |l| ==> !IsLineBreak(l[j])
    ensures Lines(l + "\r\n" + rest) == [l] + Lines(rest)
  {
    var c := l + "\r\n" + rest;
    FirstBreakAt(c, |l|);
    assert c[..|l|] == l;
    assert c[|l| + 2..] == rest;
  }

}

=== FILE: unify.dfy ===
/** Syntactic unification of flat terms and atoms, without an occurs-check. */
module Unify {

  import opened Optional
  import opened Terms
  import opened Substitution

  /** `unify_terms`: resolve both terms; equal results need nothing, otherwise a
      variable result is bound to the other result, and two different
      constants do not unify. */
  function UnifyTerms(t1: Term, t2: Term, s: Subst): (r: Option<Subst>)
    requires Acyclic(s)
    ensures r.None? <==> (!IsVar(Resolve(t1, s)) && !IsVar(Resolve(t2, s)) && Resolve(t1, s) != Resolve(t2, s))
    ensures r.Some? ==> Acyclic(r.value) && Extends(s, r.value) && ResolvesThrough(s, r.value)
    ensures r.Some? ==> Resolve(t1, r.value) == Resolve(t2, r.value)
    ensures r.Some? ==> (r.value == s <==> Resolve(t1, s) == Resolve(t2, s))
    ensures r.Some? && r.value != s ==>
      var u1, u2 := Resolve(t1, s), Resolve(t2, s);
      || (IsVar(u1) && u1 !in s && r.value == s[u1 := u2])
      || (!IsVar(u1) && IsVar(u2) && u2 !in s && r.value == s[u2 := u1])
  {
    var u1 := Resolve(t1, s);
    var u2 := Resolve(t2, s);
    if u1 == u2 then
      ResolvesThroughRefl(s);
      Some(s)
    else if IsVar(u1) then
      BindResolve(s, u1, u2);
      assert s[u1 := u2] != s by { assert u1 in s[u1 := u2]; }
      Some(s[u1 := u2])
    else if IsVar(u2) then
      BindResolve(s, u2, u1);
      assert s[u2 := u1] != s by { assert u2 in s[u2 := u1]; }
      Some(s[u2 := u1])
    else
      None
  }

  /** Unifying two terms merges their classes: afterwards two terms resolve
      alike exactly when they did before, or one was in the class of `t1` and
      the other in the class of `t2`. */
  lemma UnifyTermsMerge(t1: Term, t2: Term, s: Subst, x: Term, y: Term)
    requires Acyclic(s) && UnifyTerms(t1, t2, s).Some?
    ensures
      var s2 := UnifyTerms(t1, t2, s).value;
      var c1, c2 := Resolve(t1, s), Resolve(t2, s);
      Resolve(x, s2) == Resolve(y, s2) <==>
        || Resolve(x, s) == Resolve(y, s)
        || (Resolve(x, s) == c1 && Resolve(y, s) == c2)
        || (Resolve(x, s) == c2 && Resolve(y, s) == c1)
  {
    var u1, u2 := Resolve(t1, s), Resolve(t2, s);
    if u1 != u2 {
      if IsVar(u1) {
        BindResolve(s, u1, u2);
      } else {
        BindResolve(s, u2, u1);
      }
    }
  }

  /** Whether two terms unify does not depend on their order, and both orders
      leave the same terms resolving alike (they may differ in which side got
      bound). */
  lemma {:induction false} UnifyTermsSymmetric(t1: Term, t2: Term, s: Subst, x: Term, y: Term)
    requires Acyclic(s)
    ensures UnifyTerms(t1, t2, s).Some? <==> UnifyTerms(t2, t1, s).Some?
    ensures UnifyTerms(t1, t2, s).Some? ==>
      (Resolve(x, UnifyTerms(t1, t2, s).value) == Resolve(y, UnifyTerms(t1, t2, s).value) <==>
       Resolve(x, UnifyTerms(t2, t1, s).value) == Resolve(y, UnifyTerms(t2, t1, s).value))
  {
    if UnifyTerms(t1, t2, s).Some? {
      UnifyTermsMerge(t1, t2, s, x, y);
      UnifyTermsMerge(t2, t1, s, x, y);
    }
  }

  /** The argument loop of `unify_atoms`: unify the pairs left to right,
      threading the substitution, and stop at the first pair that fails. */
  function UnifyArgs(xs: seq<Term>, ys: seq<Term>, s: Subst): (r: Option<Subst>)
    requires |xs| == |ys| && Acyclic(s)
    ensures r.Some? ==> Acyclic(r.value) && Extends(s, r.value) && ResolvesThrough(s, r.value)
    ensures r.Some? ==> ResolveArgs(xs, r.value) == ResolveArgs(ys, r.value)
    decreases |xs|
  {
    if |xs| == 0 then
      ResolvesThroughRefl(s);
      Some(s)
    else
      match UnifyTerms(xs[0], ys[0], s)
      case None => None
      case Some(s1) =>
        var r := UnifyArgs(xs[1..], ys[1..], s1);
        if r.Some? then
          ResolvesThroughTrans(s, s1, r.value);
          ResolvesThroughAgrees(s1, r.value, xs[0], ys[0]);
          assert ResolveArgs(xs, r.value) == [Resolve(xs[0], r.value)] + ResolveArgs(xs[1..], r.value);
          assert ResolveArgs(ys, r.value) == [Resolve(ys[0], r.value)] + ResolveArgs(ys[1..], r.value);
          r
        else
          r
  }

  /** `unify_atoms`: different predicates or arities never unify; otherwise the
      arguments are unified pairwise, and on success both atoms become equal
      under the result. */
  function UnifyAtoms(a1: Atom, a2: Atom, s: Subst): (r: Option<Subst>)
    requires Acyclic(s)
    ensures (a1.pred != a2.pred || |a1.args| != |a2.args|) ==> r.None?
    ensures r.Some? ==> Acyclic(r.value) && Extends(s, r.value) && ResolvesThrough(s, r.value)
    ensures r.Some? ==> ApplyAtom(a1, r.value) == ApplyAtom(a2, r.value)
  {
    if a1.pred != a2.pred || |a1.args| != |a2.args| then None
    else UnifyArgs(a1.args, a2.args, s)
  }

  /** Threading: unifying `xs + xs'` with `ys + ys'` is unifying the first parts
      and then, from their result, the second parts. */
  lemma {:induction false} UnifyArgsAppend(xs: seq<Term>, xs': seq<Term>, ys: seq<Term>, ys': seq<Term>, s: Subst)
    requires |xs| == |ys| && |xs'| == |ys'| && Acyclic(s)
    ensures UnifyArgs(xs + xs', ys + ys', s) ==
      match UnifyArgs(xs, ys, s)
      case None => None
      case Some(s1) => UnifyArgs(xs', ys', s1)
    decreases |xs|
  {
    if |xs| == 0 {
      assert xs + xs' == xs' && ys + ys' == ys';
    } else {
      assert (xs + xs')[1..] == xs[1..] + xs';
      assert (ys + ys')[1..] == ys[1..] + ys';
      match UnifyTerms(xs[0], ys[0], s)
      case None =>
      case Some(s1) => UnifyArgsAppend(xs[1..], xs', ys[1..], ys', s1);
    }
  }

  /** The substitution after unifying the first `k` argument pairs. */
  function PrefixUnifier(xs: seq<Term>, ys: seq<Term>, s: Subst, k: nat): Option<Subst>
    requires |xs| == |ys| && Acyclic(s) && k <= |xs|
  {
    UnifyArgs(xs[..k], ys[..k], s)
  }

  /** One more pair: the prefix of length `k + 1` is the prefix of length `k`
      followed by pair `k`. */
  lemma PrefixUnifierStep(xs: seq<Term>, ys: seq<Term>, s: Subst, k: nat)
    requires |xs| == |ys| && Acyclic(s) && k < |xs|
    ensures PrefixUnifier(xs, ys, s, k + 1) ==
      match PrefixUnifier(xs, ys, s, k)
      case None => None
      case Some(sk) => UnifyTerms(xs[k], ys[k], sk)
  {
    assert xs[..k + 1] == xs[..k] + [xs[k]];
    assert ys[..k + 1] == ys[..k] + [ys[k]];
    UnifyArgsAppend(xs[..k], [xs[k]], ys[..k], [ys[k]], s);
    match PrefixUnifier(xs, ys, s, k)
    case None =>
    case Some(sk) =>
      match UnifyTerms(xs[k], ys[k], sk)
      case None =>
      case Some(s1) =>
        assert [xs[k]][1..] == [] && [ys[k]][1..] == [];
  }

  lemma {:induction false} FirstFailingPrefix(xs: seq<Term>, ys: seq<Term>, s: Subst, n: nat)
    requires |xs| == |ys| && Acyclic(s) && 0 < n <= |xs|
    requires PrefixUnifier(xs, ys, s, 0).Some? && PrefixUnifier(xs, ys, s, n).None?
    ensures exists k :: 0 <= k < n && PrefixUnifier(xs, ys, s, k).Some? && PrefixUnifier(xs, ys, s, k + 1).None?
    decreases n
  {
    if PrefixUnifier(xs, ys, s, n - 1).None? {
      FirstFailingPrefix(xs, ys, s, n - 1);
    }
  }

  /** Atom unification fails exactly at a first failing argument pair: some
      position `k` such that the pairs before `k` unify and pair `k` does not
      unify under their result. */
  lemma UnifyArgsFailsAtFirstPair(xs: seq<Term>, ys: seq<Term>, s: Subst)
    requires |xs| == |ys| && Acyclic(s)
    ensures UnifyArgs(xs, ys, s).None? <==>
      exists k :: 0 <= k < |xs| && PrefixUnifier(xs, ys, s, k).Some?
                  && UnifyTerms(xs[k], ys[k], PrefixUnifier(xs, ys, s, k).value).None?
  {
    if UnifyArgs(xs, ys, s).None? {
      FailingPairExists(xs, ys, s);
    } else {
      forall k | 0 <= k < |xs| && PrefixUnifier(xs, ys, s, k).Some?
        ensures UnifyTerms(xs[k], ys[k], PrefixUnifier(xs, ys, s, k).value).Some?
      {
        NoFailingPair(xs, ys, s, k);
      }
    }
  }

  lemma FailingPairExists(xs: seq<Term>, ys: seq<Term>, s: Subst)
    requires |xs| == |ys| && Acyclic(s) && UnifyArgs(xs, ys, s).None?
    ensures exists k :: 0 <= k < |xs| && PrefixUnifier(xs, ys, s, k).Some?
                  && UnifyTerms(xs[k], ys[k], PrefixUnifier(xs, ys, s, k).value).None?
  {
    assert xs[..|xs|] == xs && ys[..|ys|] == ys;
    assert xs[..0] == [] && ys[..0] == [];
    FirstFailingPrefix(xs, ys, s, |xs|);
    var k :| 0 <= k < |xs| && PrefixUnifier(xs, ys, s, k).Some? && PrefixUnifier(xs, ys, s, k + 1).None?;
    PrefixUnifierStep(xs, ys, s, k);
  }

  lemma NoFailingPair(xs: seq<Term>, ys: seq<Term>, s: Subst, k: nat)
    requires |xs| == |ys| && Acyclic(s) && UnifyArgs(xs, ys, s).Some?
    requires k < |xs| && PrefixUnifier(xs, ys, s, k).Some?
    ensures UnifyTerms(xs[k], ys[k], PrefixUnifier(xs, ys, s, k).value).Some?
  {
    assert xs == xs[..k] + xs[k..] && ys == ys[..k] + ys[k..];
    UnifyArgsAppend(xs[..k], xs[k..], ys[..k], ys[k..], s);
    assert xs[k..][0] == xs[k] && ys[k..][0] == ys[k];
  }

  /** Every atom unifies with itself, under any substitution, binding nothing. */
  lemma {:induction false} UnifyAtomsSelf(a: Atom, s: Subst)
    requires Acyclic(s)
    ensures UnifyAtoms(a, a, s) == Some(s)
  {
    UnifyArgsSelf(a.args, s);
  }

  lemma {:induction false} UnifyArgsSelf(xs: seq<Term>, s: Subst)
    requires Acyclic(s)
    ensures UnifyArgs(xs, xs, s) == Some(s)
    decreases |xs|
  {
    if |xs| > 0 {
      UnifyArgsSelf(xs[1..], s);
    }
  }

}
